=== FILE: README.md ===
# quiz-scorer, modelled in Dafny

quiz-scorer is a Slack bot for a pub-quiz channel. It reads messages of
the form `12/15` posted in `#quizscores` and stores the score for the
person who posted it. It reacts with :exploding_head: to a score of 0 or 1
and with :fire: to 14 or 15. It answers `!leaderboard` with a table of
everyone's averages, ranked by their latest ten scores. A background thread
polls the Stuff news site's quiz listing and announces each listed quiz.

This project models the bot's logic as pure Dafny functions over immutable
data and proves what that logic guarantees:

- `wrappers.dfy` (`Wrappers`): `Option` and a `Result` whose `Raised`
  case stands for a Python exception.
- `text.dfy` (`Text`): the string operations the bot relies on. These
  are decimal digits, `lstrip('#')`, Python's `strip()` with its
  whitespace set, and `"\n".join` together with its inverse split.
- `score_parse.dfy` (`ScoreParse`): `parse_text_for_score`. The search
  `([0-9]{1,2})/15` is written out as the regex engine runs it: leftmost
  start, greedy quantifier, then the range check. It is proved equal to a
  second, independent rule: "the first `/15` preceded by a digit decides".
- `affinity.dfy` (`Affinity`): what SQLite stores for a text value in a
  column declared `string`. Such a column has NUMERIC affinity: text that
  reads as a number is stored as an integer or a real, and anything else
  stays text. It also gives Python's truth value of what is read back,
  SQLite's `=` and ordering, and how an f-string renders a stored value.
- `tables.dfy` (`Tables`): the three SQLite tables as sequences of rows in
  insertion order, each column holding the stored value. It covers the
  first-row lookups, the inserts (which only ever append) and the
  `scores JOIN users` query.
- `names.dfy` (`Names`): `get_channel_name` and `get_user_name`. Each is
  a store-backed cache in front of the Slack API. The cache works only
  for names whose stored value Python finds true, so an empty name or a
  name such as `0` is fetched and appended again on every lookup.
- `stable_sort.dfy` (`StableSort`): `sorted(..., reverse=True)` as a
  stable insertion sort.
- `leaderboard.dfy` (`Leaderboard`): `get_leaderboard`. It groups the
  joined rows by user, computes the four figures per user, and ranks by
  recent average; ties keep first-appearance order.
- `bot.dfy` (`Bot`): the `message` handler. It covers the
  `!leaderboard` command, the channel gate, score recording, reactions
  and the leaderboard text.
- `stuff_quiz.dfy` (`StuffQuiz`): `StuffQuiz.__init__`, including the
  quiz-id pattern `/[A-Za-z0-9._-]+/([0-9]+)/` written as a leftmost
  greedy search.
- `poller.dfy` (`Poller`): the poller thread's `get_stuff_quizzes`
  (after HTML parsing), `process_stuff_quizzes`, `sleep` and `run`, over
  a finite trace of passes.

The outside world becomes parameters:

- A `Directory` holds the three Slack lookups, each returning `None`
  where the call raises.
- Each poller pass carries its listing, its own detail-page reads and
  callback results (every pass fetches and calls afresh, so a quiz may
  succeed on one pass and fail on the next), and its `alive` flags.
  Whether a callback is set is fixed for the run. A `Hooks` gathers what
  one pass calls.
- A `Formats` holds two `real -> string` functions. One renders the
  average where the source uses `:.1f`. The other renders a name that
  the store read back as a float.

The rows that the leaderboard query returns are a parameter of the
handler, constrained by `IsBoardQuery`:

- they are a permutation of the join;
- they are newest first (`ORDER BY scores.ts DESC`). A Slack `ts` such
  as `1596512345.000200` is stored as a real, so rows are ordered by the
  number, not by the text (`Affinity.TimesCompareAsNumbers`).

What the code does, where a reader might expect otherwise:

- Nothing deduplicates quizzes. Every pass hands every listed quiz to the
  callback again, so each quiz is announced on every pass
  (`Poller.NoDedupAcrossPasses`).
- Scores are not attributed to quizzes. A score row holds only user,
  channel, score and message time.
- The join counts a score once per users row with its id, and nothing
  stops duplicate users rows (`Tables.DuplicateUserRowsDoubleCount`).
- A display name that reads as a number is read back as that number:
  `007` comes back as 7 and is shown as `7`. A name that reads as zero,
  such as `0`, is false, so each of that user's messages fetches the
  name again and appends another users row (`Names.ZeroNameStoredTwice`),
  and each of their scores is counted once per such row in the
  leaderboard.

## Model

| member | source | states |
|---|---|---|
| ScoreParse.ParseScore | app.py:67-81 | The score read from a message is at most 15. A missing text (the search raises) gives no score. |
| ScoreParse.ParseScoreFirstMarker | app.py:69-81 | The score is decided by the first `/15` that has a digit right before it. It is that digit and the one before it (when that is a digit too), unless the value exceeds 15, in which case there is no score. |
| ScoreParse.SearchFromFindsFirstMarker | app.py:69 | The leftmost-greedy regex search from position p finds exactly the first digit-preceded `/15` after p. It takes two digits only when both lie at or after p. |
| ScoreParse.NoMarkerNoScore | app.py:74-75 | A message with no digit directly before any `/15` yields no score. |
| ScoreParse.WrittenScoreIsRead | app.py:67-81 | A score of one or two digits written as `g/15`, after text without digits, is read back as its value, whatever follows. |
| ScoreParse.ScoreRoundTrip | app.py:67-81 | Every score 0..15, written in decimal before `/15`, parses back to itself. |
| ScoreParse.FirstCandidateOnly | app.py:69-80 | Only the first candidate counts: in `20/15 then 7/15`, the out-of-range `20` hides the later `7`, so there is no score. |
| ScoreParse.ThreeDigitsUseLastTwo | app.py:69 | For `115/15` the pattern captures the last two digits, giving 15. |
| Text.NatToStringRoundTrip | app.py:110 | The decimal rendering of a count is all digits and reads back as the same number. |
| Text.LStripChar | app.py:157 | `lstrip(c)` removes exactly the leading run of `c`. The result is a suffix of the input, and it does not start with `c`. |
| Text.LStripCharRepeat | app.py:157 | Stripping `c` from k copies of `c` followed by text that does not start with `c` gives that text. |
| Text.LStripCharSplit | app.py:157 | Every string is its leading run of `c` followed by its `lstrip(c)`. |
| Text.LStripCharIdempotent | app.py:157 | `lstrip(c)` applied twice equals applying it once. |
| Text.Strip | stuffquiz.py:20 | `strip()` returns the part of the input between a whitespace prefix and a whitespace suffix, and neither end of the result is whitespace. |
| Text.StrippedAtUnique | stuffquiz.py:20 | There is only one such part, so the stripped name is determined by the input. |
| Text.StripIdempotent | stuffquiz.py:20 | Stripping a stripped name changes nothing. |
| Text.SplitJoinLines | app.py:109-112 | Joining newline-free lines with `"\n"` and splitting at newlines gives back the same lines. |
| Affinity.Stored | db.py:28-34 | Text that does not read as a number is stored as that text. Text that does is stored as a number equal to the literal's value. It is an integer when that value is a whole number in the 64-bit range, and a real otherwise. |
| Affinity.StoredTruthy | app.py:44-46 | Python finds a read-back name false exactly when it is empty text, or when the text read as a number whose digits are all zero. |
| Affinity.StoredNonNumeric | db.py:28-34 | Text containing a character that is neither a space nor part of a number literal is stored unchanged. |
| Affinity.StoredDigits | db.py:28-34 | A digit string in the 64-bit range, leading zeros allowed, is stored as the integer it denotes. |
| Affinity.IntRoundTrip | app.py:110 | The decimal text of a 64-bit integer is stored as that integer, and the f-string renders it back as the same text. |
| Affinity.SqlEqualIff | db.py:93-97 | On stored values, SQLite's `=` holds exactly when the two values are equal, so lookups and the join can compare stored values directly. |
| Affinity.NumericNames | app.py:43-46 | The name `0` is read back as the integer 0, which Python finds false. The name `007` is read back as 7 and rendered as `7`. |
| Affinity.StoredPointed | db.py:85-89 | A time written as digits, a point and digits is stored as the number it denotes. |
| Affinity.TimesCompareAsNumbers | db.py:97 | Stored times are ordered as numbers: `10.0` sorts after `9.5`, although as text it sorts before. |
| Tables.FirstIndex | db.py:43-46 | The first row satisfying the condition, if any. No earlier row satisfies it. `None` means no row does. |
| Tables.ChannelNameById | db.py:38-46 | Gives `None` exactly when no channels row holds the id as stored. Otherwise it gives the stored name on the first row with that id. |
| Tables.UserNameById | db.py:56-64 | Gives `None` exactly when no users row holds the id as stored. Otherwise it gives the stored name on the first row with that id. |
| Tables.UserIdByName | db.py:67-75 | Gives `None` exactly when no users row holds the name as stored. Otherwise it gives the id on the first row with that name. |
| Tables.CreateChannel | db.py:49-53 | Appends one channels row holding the stored id and name, even for a known id. Every other row and table is unchanged. |
| Tables.CreateUser | db.py:78-82 | Appends one users row holding the stored id and name, even for a known id. Every other row and table is unchanged. |
| Tables.AddScore | db.py:85-89 | Appends one scores row holding the stored user, channel and time, even an identical one. Every other row and table is unchanged. |
| Tables.ChannelLookupAfterCreate | db.py:38-53 | After an insert, a channel lookup is unchanged, except that an id with no row before now finds the new name as stored. A second name for a known id is stored but never read. |
| Tables.UserLookupAfterCreate | db.py:56-82 | The same first-row-wins rule for users. |
| Tables.MatchesFor | db.py:94-97 | One score joins once with each users row carrying its id: the joined names are exactly the names on those users rows, in table order, so two rows for one id with different names give both names. Every joined row keeps the score's user, score and time. |
| Tables.EveryNameJoinsOnce | db.py:94-97 | A score whose id sits on two users rows with different names joins once with each, carrying the first name and then the second. |
| Tables.JoinScoresUsersSize | db.py:94-99 | The number of joined rows is the sum over scores of the number of users rows with the score's id. |
| Tables.JoinEmptyIff | db.py:94-101 | The join is empty exactly when no score's user has a users row. |
| Tables.DuplicateUserRowsDoubleCount | db.py:94-99 | With two users rows for one id, one stored score yields two joined rows. |
| Names.GetChannelName | app.py:17-37 | Only the channels table changes, and it gains at most one appended row. A stored name that Python finds true is returned as stored. On a miss, an id starting with G asks the private-channel lookup and one starting with C the channel lookup; the text it reports is returned and stored, and a failing lookup raises. Any other id gives `None` and stores nothing. |
| Names.GetUserName | app.py:40-56 | Only the users table changes, and it gains at most one appended row. A stored name that Python finds true is returned as stored. On a miss, an id starting with U asks the user lookup; the text it reports is returned and stored, and a failing lookup raises. Any other id gives `None`. |
| Names.ChannelNameCached | app.py:17-37 | After a new channel's name has been fetched, the store holds it as `Stored(name)`. The next lookup is a hit exactly when Python finds that value true, and then it returns the stored value without asking Slack. |
| Names.UserNameCached | app.py:40-56 | After a new user's name has been fetched, the store holds it as `Stored(name)`. The next lookup is a hit exactly when Python finds that value true, and then it returns the stored value without asking Slack. |
| Names.FalsyUserNameNeverCached | app.py:43-55 | A stored display name that Python finds false is always a miss. Each successful lookup appends another row, while the first row keeps winning. |
| Names.ZeroNameStoredTwice | app.py:40-56 | A new user whose display name is `0`, looked up twice, ends up with two users rows carrying the same id. |
| StableSort.Insert | db.py:117 | Inserting keeps every element: the result is the input plus the new element, as a multiset. |
| StableSort.SortDesc | db.py:117 | Sorting permutes its input. |
| StableSort.SortDescNonIncreasing | db.py:117 | Sorting with `reverse=True` orders the keys from largest to smallest. |
| StableSort.SortDescRanked | db.py:117 | The sort is stable. If the input is strictly increasing in `pos`, the output is ordered by key descending and, among equal keys, by `pos` ascending. |
| StableSort.InsertRanked | db.py:117 | Inserting an element that precedes every element in `pos` into a ranked sequence keeps it ranked. |
| StableSort.RankedCons | db.py:117 | A sequence with a head is ranked exactly when its tail is ranked and the head ranks ahead of every tail element. |
| Leaderboard.GroupRows | db.py:102-109 | The loop builds one group per user with distinct ids, in order of each user's first row. Each group is named from its user's first row and holds all that user's scores in row order. Every row lands in exactly one group. |
| Leaderboard.AddRowExisting | db.py:104-109 | A row of a user who already has a group appends its score to that group, and the grouping stays correct. |
| Leaderboard.AddRowNew | db.py:104-109 | A row of a new user opens a group named from that row, last in order, and the grouping stays correct. |
| Leaderboard.Summarise | db.py:111-115 | A user's line keeps the user's id, name and scores and counts all of them. The recent figures cover the newest ten scores, or all of them when there are fewer. Each of the two averages lies between the smallest and the largest score it averages. |
| Leaderboard.MeanBounds | db.py:113-115 | The mean of a non-empty score list lies between its minimum and maximum. |
| Leaderboard.SummariesOfGroups | db.py:111-115 | Summarising a correct grouping gives one line per user: its count, its mean, and the count and mean of its newest ten scores. The lines are in first-appearance order and cover every row. The quiz counts add up to the number of rows. |
| Leaderboard.SortedEntriesAreLeaderboard | db.py:116-119 | Sorting those lines stably by recent average gives the leaderboard. Highest recent average comes first, ties go in order of first appearance, each user appears once, and every row is counted once. |
| Leaderboard.GetLeaderboard | db.py:92-119 | Given the query rows: `None` exactly when there are no rows. Otherwise the result is the leaderboard of the rows, as above. |
| Bot.ReactionFor | app.py:173-178 | :exploding_head: exactly for scores 0 and 1, :fire: exactly for 14 and 15, and no reaction otherwise. |
| Bot.IsQuizChannelIff | app.py:156-158 | The channel gate accepts exactly the names made of some number of `#` followed by `quizscores`. |
| Bot.BoardText | app.py:104-114 | The block's text is empty exactly when the leaderboard is, and otherwise starts with the top entry's line. |
| Bot.BoardLineNoNewline | app.py:110 | A leaderboard line has no newline when the rendered name and average have none. |
| Bot.BoardTextLines | app.py:104-114 | The posted text splits into one line per leaderboard entry, in order. Each line uses "quiz" exactly when the count is 1. |
| Bot.LeaderboardActions | app.py:117-124 | The command posts at most one message. It posts one exactly when the query returned rows, and that message is the leaderboard text. |
| Bot.HandleMessage | app.py:127-182 | The command changes nothing and posts at most one message. Any other message appends at most one channels row, at most one users row and at most the message's own score row. It only reacts to the message, and only after recording its score. |
| Bot.ScoreMessage | app.py:151-182 | Handling an ordinary message appends at most one row to each of channels and users, and at most the message's own score row. Every action is a reaction to the message, taken only when the score was recorded. |
| Bot.RecordFromUser | app.py:165-178 | Recording leaves the channels table alone, appends at most one users row, and appends at most the message's score row. It reacts only after recording. A message without a user (a bot's) raises in the lookup and changes nothing. |
| Bot.KnownUserRecords | app.py:165-178 | When the user's lookup succeeds with a name Python finds true, exactly the score row is appended and the reaction is chosen by `ReactionFor`. |
| Bot.LeaderboardCommandOnly | app.py:142-147 | `!leaderboard` records nothing. It posts at most one message, to the channel that asked, and posts nothing exactly when no score has a known user. |
| Bot.RecordsIff | app.py:151-167 | The handler's `lstrip` test accepts a message exactly when a score is recorded by the plain rule. The channel's name is text made of `#`s followed by `quizscores`, the score parses, and the user's name is true to Python. |
| Bot.HandleMessageRecords | app.py:151-178 | A recorded message appends exactly one score row, holding the message's user, channel, score and time as stored. It reacts as `ReactionFor` says. |
| Bot.AcceptedScoreMessage | app.py:160-178 | Once the gate, the score and the user have all passed, the score row is appended and the reaction chosen. |
| Bot.HandleMessageIgnores | app.py:142-182 | Any other message leaves the scores table unchanged and reacts to nothing. |
| StuffQuiz.SearchFrom | stuffquiz.py:12 | The quiz-id search returns the leftmost position where the pattern matches, with the greedy extents of both groups. `None` means it matches nowhere. |
| StuffQuiz.MatchAtIff | stuffquiz.py:12 | The greedy attempt at a position succeeds exactly when the pattern matches there. |
| StuffQuiz.QuizId | stuffquiz.py:19 | A found id is non-empty and all digits. |
| StuffQuiz.QuizIdIsLeftmostMatch | stuffquiz.py:12-19 | The id is the digit group of the leftmost match in the link. Construction raises exactly when the pattern matches nowhere. |
| StuffQuiz.NewQuiz | stuffquiz.py:17-24 | A quiz is built exactly when its link has an id. The name is stripped, the link is kept, the url is the site base followed by the link, and there is no time yet. |
| Poller.BuildAll | stuffquiz.py:40-54 | Building every entry succeeds exactly when each entry builds, and then gives one result per entry in order. Otherwise the call raises with the first failing entry's exception. |
| Poller.BuildListing | stuffquiz.py:48-54 | The listing holds one quiz per page entry, in page order. It fails exactly when some link has no id. |
| Poller.ProcessQuizzes | stuffquiz.py:70-74 | Without a callback nothing happens. Otherwise the quizzes are handed over in order, each with its detail time attached. A pass that does not raise hands over every quiz. |
| Poller.ProcessAllSucceed | stuffquiz.py:70-74 | When every detail read and callback succeeds, every quiz is handed over once, timed, in listing order. |
| Poller.Sleep | stuffquiz.py:77-81 | At most 19 waits. Every check before the last wait found the poller alive, and stopping early means the next check found it stopped. |
| Poller.Listing | stuffquiz.py:31-36 | A pass has a listing exactly when the page was read and every link had an id. |
| Poller.Run | stuffquiz.py:28-37 | Over a trace, at least one pass runs and no more than the trace holds. Without a callback nothing is handed over and the thread cannot crash. |
| Poller.RunHandsOverEveryPass | stuffquiz.py:28-37 | However a run ends (stopped, crashed or out of trace), what it handed to the callback is exactly what its passes handed over, pass after pass, with nothing remembered between passes. |
| Poller.CrashEndsRun | stuffquiz.py:28-37 | When the first n passes survive with the poller alive and pass n raises from processing, the run crashes after n+1 passes. It has handed over what those passes handed over, and no later pass runs. |
| Poller.ProcessingRaisesEndsRun | stuffquiz.py:35-36 | An exception from processing in the first pass crashes the run after that one pass, with what it had handed over. |
| Poller.FailedListingSkipsPass | stuffquiz.py:31-37 | A pass whose listing failed hands over nothing, and the run continues with the next pass. |
| Poller.NoDedupAcrossPasses | stuffquiz.py:28-37 | Two passes over the same listing, each succeeding, hand every quiz over twice, each time with the time its own pass read. |
| Poller.TransientFailureCrashesLaterPass | stuffquiz.py:28-37 | When a quiz handed over on one pass has its detail read raise on the next, that next pass crashes the run after two passes, with the first pass's listing handed over. |

## Left out

- Slack I/O (the RTM client, `reactions_add`, `chat_postMessage`) is not
  modelled as calls. Its effects are the `Post`/`React` actions of
  `Bot.Outcome`, and the name lookups are the `Directory` parameter.
- `alert_channel_about_new_stuff_quiz` is the callback, `Pass.notify`:
  what it posts is Slack I/O, and the model records only which quizzes
  reach it.
- `add_reaction` failures are not modelled. If a reaction call raises
  after the insert, the row stays stored and the model's outcome is the
  same.
- SQLite connection handling, `initialize` and commits are left out. Every
  statement commits at once, so the store is a value that each insert
  replaces.
- HTTP fetches, BeautifulSoup selectors, `strptime`/`mktime` and the
  proxy environment variable are parameters. These are the page listing
  per pass and the `details` function.
- Threads, real sleeping and `stop()` are left out. `alive` is sampled per
  check, as `Pass.aliveAt` and `Pass.aliveAfter`, and a run is a finite
  trace of passes.
- Poller.Run: skips the sleep between passes. `Poller.Sleep` models it on
  its own, and `Pass.aliveAt` is read only there, because the number of
  waits changes nothing that a pass hands over. The five-second length of
  each wait is left out with real time.
- `:.1f` formatting of the average, and `str()` of a name read back as a
  float, are the two `Formats` functions, which are floating-point
  rendering.
- Affinity.Stored: numbers are exact. SQLite converts to a 64-bit double,
  so text with more than 15 significant digits, exponents beyond the
  double range (`1e400`, `1e-400`) and whole values just outside the
  64-bit range may be stored differently.
- Averages are exact `real` means, not IEEE doubles. Ranking ties are
  therefore exact ties.
- A message event's `channel` and `ts` are taken to be present strings.
  Only `user` and `text` are optional in the model.
- The `__main__` blocks, environment variables and logging prints are
  left out.
- The `score < 0` test in `parse_text_for_score` is left out. It can
  never fire, because the captured digits are never negative.
- `Bot.IsBoardQuery` takes the ordering of rows with equal `ts` as given.
  SQLite does not fix it, so every newest-first permutation of the join
  is allowed.
- `Bot.IsBoardQuery` orders `ts` as SQLite orders stored values: numbers
  by value before text, text by its characters. Exact decimals stand for
  the doubles SQLite keeps, so two Slack times that differ only beyond a
  double's precision are ordered here but tied in SQLite.
- Poller.Run: states only the outcome's shape in its own contract. That
  every run hands over exactly what its passes hand over is
  `Poller.RunHandsOverEveryPass`; what one pass hands over is
  `Poller.ProcessQuizzes`; how a crash ends the run is
  `Poller.CrashEndsRun`; `Poller.FailedListingSkipsPass` and
  `Poller.NoDedupAcrossPasses` are the skipped-pass and repeated-listing
  cases.
- Poller.ProcessQuizzes: models `hasattr(self, 'on_new_stuff_quiz')` as
  fixed for the whole pass, and `Poller.Run` as fixed for the whole run,
  since nothing in the thread sets or removes it.
- Bot.ScoreMessage: models an exception from the Slack channel or user
  lookup, and the one `None.startswith` raises for a message without a
  user, as stopping the handler with nothing recorded. A failing insert
  into `scores` (an SQLite error) is not modelled: `Tables.AddScore`
  always succeeds, because the store's own failures are outside the model.
- Tables.UserIdByName: is defined and specified, but the handler never
  calls it.

=== FILE: affinity.dfy ===
/** What the store gives back for text written to a column declared
    `string`. SQLite gives such a column NUMERIC affinity: text that is a
    well-formed number is converted when it is inserted, to an integer when
    its value is a whole number in the 64-bit range and to a float
    otherwise; every other text is kept as text. Python then reads the
    value back as `str`, `int` or `float`. */
module Affinity {
  import opened Wrappers
  import opened Text

  /** A stored value as Python reads it back. */
  datatype Value = Str(s: string) | Int(n: int) | Float(x: real)

  const MinInt64: int := -0x8000_0000_0000_0000
  const MaxInt64: int := 0x7FFF_FFFF_FFFF_FFFF

  predicate InInt64(n: int) {
    MinInt64 <= n <= MaxInt64
  }

  function Pow10(k: nat): (p: nat)
    ensures p >= 1
  {
    if k == 0 then 1 else 10 * Pow10(k - 1)
  }

  // ---------------------------------------------------------------------
  // Recognising a number.

  /** The characters SQLite skips around a number: space, tab, newline,
      vertical tab, form feed and carriage return. */
  predicate IsSqlSpace(c: char) {
    c == ' ' || 9 <= c as int <= 13
  }

  /** Length of the leading run of spaces. */
  function LeadingSqlSpace(s: string): (n: nat)
    ensures n <= |s| && (forall k :: 0 <= k < n ==> IsSqlSpace(s[k])) && (n < |s| ==> !IsSqlSpace(s[n]))
  {
    if |s| > 0 && IsSqlSpace(s[0]) then 1 + LeadingSqlSpace(s[1..]) else 0
  }

  /** Length of the trailing run of spaces. */
  function TrailingSqlSpace(s: string): (n: nat)
    ensures n <= |s| && (forall k :: |s| - n <= k < |s| ==> IsSqlSpace(s[k]))
    ensures n < |s| ==> !IsSqlSpace(s[|s| - n - 1])
  {
    if |s| > 0 && IsSqlSpace(s[|s| - 1]) then 1 + TrailingSqlSpace(s[..|s| - 1]) else 0
  }

  /** The text between the leading and the trailing spaces. */
  function Core(s: string): (t: string)
    ensures exists a, b :: 0 <= a <= b <= |s| && t == s[a..b]
                           && (forall k :: 0 <= k < a ==> IsSqlSpace(s[k]))
                           && (forall k :: b <= k < |s| ==> IsSqlSpace(s[k]))
  {
    var a := LeadingSqlSpace(s);
    var rest := s[a..];
    var b := a + |rest| - TrailingSqlSpace(rest);
    assert rest[..|rest| - TrailingSqlSpace(rest)] == s[a..b];
    rest[..|rest| - TrailingSqlSpace(rest)]
  }

  /** The end of the run of digits starting at `i`. */
  function DigitsEnd(t: string, i: nat): (j: nat)
    requires i <= |t|
    ensures i <= j <= |t| && (forall k :: i <= k < j ==> IsDigit(t[k])) && (j < |t| ==> !IsDigit(t[j]))
    decreases |t| - i
  {
    if i < |t| && IsDigit(t[i]) then DigitsEnd(t, i + 1) else i
  }

  /** A number literal: its sign, the value of the digits before the
      point, the value and the count of the digits after it, and the
      exponent. */
  datatype Literal = Literal(negative: bool, whole: nat, fracValue: nat, fraction: nat, exponent: int)

  /** All the literal's digits read as one integer. Its value is
      `Mantissa(lit) * 10^(exponent - fraction)`, negated when `negative`. */
  function Mantissa(lit: Literal): nat {
    lit.whole * Pow10(lit.fraction) + lit.fracValue
  }

  predicate IsSign(c: char) {
    c == '+' || c == '-'
  }

  /** The characters a literal is written with. */
  predicate LiteralChar(c: char) {
    IsDigit(c) || IsSign(c) || c == '.' || c == 'e' || c == 'E'
  }

  /** The value of the digits `t[i..j]`. */
  function DigitsValue(t: string, i: nat, j: nat): nat
    requires i <= j <= |t| && forall k :: i <= k < j ==> IsDigit(t[k])
  {
    assert AllDigits(t[i..j]);
    DecimalValue(t[i..j])
  }

  /** The exponent written from `i` to the end. Nothing at all reads as 0;
      otherwise `e` or `E` must be followed by an optional sign and at
      least one digit, and by nothing else. */
  function ExponentFrom(t: string, i: nat): Option<int>
    requires i <= |t|
  {
    if i == |t| then Some(0)
    else if t[i] != 'e' && t[i] != 'E' then None
    else
      var j0 := if i + 1 < |t| && IsSign(t[i + 1]) then i + 2 else i + 1;
      var j1 := DigitsEnd(t, j0);
      if j1 == j0 || j1 != |t| then None
      else if t[i + 1] == '-' then Some(-(DigitsValue(t, j0, j1) as int))
      else Some(DigitsValue(t, j0, j1))
  }

  /** An optional sign, digits with at most one point among or after them
      (at least one digit in all), and an optional exponent. */
  function ParseLiteral(t: string): Option<Literal> {
    if |t| > 0 && IsSign(t[0]) then ParseUnsigned(t, 1) else ParseUnsigned(t, 0)
  }

  /** The literal after its sign, which ends at `i0`. */
  function ParseUnsigned(t: string, i0: nat): Option<Literal>
    requires i0 <= |t|
  {
    var i1 := DigitsEnd(t, i0);
    if i1 < |t| && t[i1] == '.' then Assemble(t, i0, i1, DigitsEnd(t, i1 + 1) - i1 - 1)
    else Assemble(t, i0, i1, 0)
  }

  /** The literal with digits `t[i0..i1]` before the point and `frac`
      digits after it; the exponent follows them. */
  function Assemble(t: string, i0: nat, i1: nat, frac: nat): Option<Literal>
    requires i0 <= i1 && i1 + (if frac > 0 then frac + 1 else 0) <= |t|
    requires forall k :: i0 <= k < i1 ==> IsDigit(t[k])
    requires forall k :: i1 + 1 <= k < i1 + 1 + frac ==> IsDigit(t[k])
  {
    var i2 := if frac > 0 then i1 + 1 + frac else if i1 < |t| && t[i1] == '.' then i1 + 1 else i1;
    if i1 - i0 + frac == 0 then None
    else match ExponentFrom(t, i2)
      case None => None
      case Some(e) =>
        Some(Literal(i0 == 1 && t[0] == '-', DigitsValue(t, i0, i1), DigitsValue(t, i2 - frac, i2), frac, e))
  }

  lemma ExponentChars(t: string, i: nat)
    requires i <= |t| && ExponentFrom(t, i).Some?
    ensures forall k :: i <= k < |t| ==> LiteralChar(t[k])
  {
  }

  /** A literal is written only with digits, signs, points and `e`. */
  lemma ParseLiteralChars(t: string)
    requires ParseLiteral(t).Some?
    ensures forall k :: 0 <= k < |t| ==> LiteralChar(t[k])
  {
    if |t| > 0 && IsSign(t[0]) {
      UnsignedChars(t, 1);
    } else {
      UnsignedChars(t, 0);
    }
  }

  lemma UnsignedChars(t: string, i0: nat)
    requires i0 <= |t| && ParseUnsigned(t, i0).Some?
    ensures forall k :: i0 <= k < |t| ==> LiteralChar(t[k])
  {
    var i1 := DigitsEnd(t, i0);
    if i1 < |t| && t[i1] == '.' {
      var i2 := DigitsEnd(t, i1 + 1);
      assert ExponentFrom(t, i2).Some?;
      ExponentChars(t, i2);
    } else {
      assert ExponentFrom(t, i1).Some?;
      ExponentChars(t, i1);
    }
  }

  /** The literal's digits as a signed integer. */
  function Signed(lit: Literal): int {
    if lit.negative then -(Mantissa(lit) as int) else Mantissa(lit)
  }

  /** The exact value of a literal. */
  function LiteralValue(lit: Literal): real {
    var m := Signed(lit) as real;
    if lit.exponent >= lit.fraction then m * Pow10(lit.exponent - lit.fraction) as real
    else m / Pow10(lit.fraction - lit.exponent) as real
  }

  /** The number a value holds, for values that are numbers. */
  function NumberOf(v: Value): real
    requires !v.Str?
  {
    if v.Int? then v.n as real else v.x
  }

  /** Whether a real is a whole number in the 64-bit range. */
  ghost predicate IsInt64(x: real) {
    exists n: int :: InInt64(n) && x == n as real
  }

  /** The value a literal is stored as: an integer when it is a whole
      number that fits in 64 bits, a float otherwise. */
  function LiteralStored(lit: Literal): (v: Value)
    ensures !v.Str? && NumberOf(v) == LiteralValue(lit)
    ensures v.Int? ==> InInt64(v.n)
    ensures v.Float? ==> !IsInt64(v.x)
  {
    var m := Signed(lit);
    if lit.exponent >= lit.fraction then
      var n := m * Pow10(lit.exponent - lit.fraction);
      if InInt64(n) then Int(n)
      else
        assert !IsInt64(n as real) by {
          forall k: int | InInt64(k) ensures n as real != k as real { }
        }
        Float(n as real)
    else
      var d := Pow10(lit.fraction - lit.exponent);
      if m % d == 0 && InInt64(m / d) then
        assert (m / d) as real == m as real / d as real by { DivExact(m, d); }
        Int(m / d)
      else
        var x := m as real / d as real;
        assert !IsInt64(x) by {
          forall k: int | InInt64(k) ensures x != k as real {
            if x == k as real {
              DivReal(m, d, k);
              assert m == (m / d) * d + m % d;
              assert m % d == 0 && m / d == k by { DivUnique(m, d, k); }
            }
          }
        }
        Float(x)
  }

  lemma DivExact(m: int, d: nat)
    requires d >= 1 && m % d == 0
    ensures (m / d) as real == m as real / d as real
  {
    assert m == (m / d) * d;
    assert m as real == (m / d) as real * d as real;
  }

  lemma DivReal(m: int, d: nat, k: int)
    requires d >= 1 && m as real / d as real == k as real
    ensures m == k * d
  {
    assert m as real == k as real * d as real;
  }

  lemma DivUnique(m: int, d: nat, k: int)
    requires d >= 1 && m == k * d
    ensures m % d == 0 && m / d == k
  {
    var q, r := m / d, m % d;
    assert (q - k) * d == -r;
    if q - k >= 1 {
      MulAtLeast(q - k, d);
    } else if q - k <= -1 {
      MulAtLeast(k - q, d);
    }
  }

  lemma MulAtLeast(a: int, d: nat)
    requires a >= 1
    ensures a * d >= d
  {
  }

  /** NUMERIC affinity: what is stored for the text `s`. */
  function Stored(s: string): (v: Value)
    ensures ParseLiteral(Core(s)).None? ==> v == Str(s)
    ensures ParseLiteral(Core(s)).Some? ==> !v.Str? && NumberOf(v) == LiteralValue(ParseLiteral(Core(s)).value)
    ensures v.Int? ==> InInt64(v.n)
    ensures v.Float? ==> !IsInt64(v.x)
  {
    match ParseLiteral(Core(s))
    case None => Str(s)
    case Some(lit) => LiteralStored(lit)
  }

  // ---------------------------------------------------------------------
  // How Python and SQLite use a stored value.

  /** Python's truth value: empty text and zero are false. */
  predicate Truthy(v: Value) {
    match v
    case Str(s) => s != ""
    case Int(n) => n != 0
    case Float(x) => x != 0.0
  }

  /** SQLite's `=` on two values: numbers by value, text by its
      characters, and a number never equals text. */
  predicate SqlEqual(a: Value, b: Value) {
    if a.Str? || b.Str? then a == b else NumberOf(a) == NumberOf(b)
  }

  /** Lexicographic order on text, by character code. */
  predicate TextAtMost(a: string, b: string) {
    if |a| == 0 then true
    else if |b| == 0 then false
    else if a[0] != b[0] then a[0] < b[0]
    else TextAtMost(a[1..], b[1..])
  }

  /** SQLite's order on values: numbers by value, and every number before
      any text. */
  predicate AtMost(a: Value, b: Value) {
    if a.Str? && b.Str? then TextAtMost(a.s, b.s)
    else if a.Str? then false
    else if b.Str? then true
    else NumberOf(a) <= NumberOf(b)
  }

  /** Python's `str(n)` for an integer. */
  function IntToString(n: int): (s: string)
    ensures n >= 0 ==> s == NatToString(n)
    ensures n < 0 ==> s == "-" + NatToString(-n)
  {
    if n >= 0 then NatToString(n) else "-" + NatToString(-n)
  }

  /** How an f-string renders a value read back: text as it is, an integer
      in decimal, and a float as `floatRepr` (Python's shortest form)
      renders it. */
  function Show(v: Value, floatRepr: real -> string): string {
    match v
    case Str(s) => s
    case Int(n) => IntToString(n)
    case Float(x) => floatRepr(x)
  }

  // ---------------------------------------------------------------------
  // Properties.

  /** A number is stored false exactly when its digits are all zero. */
  lemma LiteralTruthy(lit: Literal)
    ensures Truthy(LiteralStored(lit)) <==> lit.whole != 0 || lit.fracValue != 0
  {
    var m := Signed(lit) as real;
    assert m == 0.0 <==> Mantissa(lit) == 0;
    assert Mantissa(lit) == 0 <==> lit.whole == 0 && lit.fracValue == 0 by {
      if lit.whole != 0 {
        MulAtLeast(lit.whole, Pow10(lit.fraction));
      }
    }
    if lit.exponent >= lit.fraction {
      ProductZero(m, Pow10(lit.exponent - lit.fraction));
    } else {
      QuotientZero(m, Pow10(lit.fraction - lit.exponent));
    }
  }

  lemma ProductZero(m: real, p: nat)
    requires p >= 1
    ensures m * p as real == 0.0 <==> m == 0.0
  {
  }

  lemma QuotientZero(m: real, p: nat)
    requires p >= 1
    ensures m / p as real == 0.0 <==> m == 0.0
  {
    if m / p as real == 0.0 {
      assert m == (m / p as real) * p as real;
    }
  }

  /** A read-back value is false exactly when the text was empty or is a
      number whose digits are all zero, such as `0`, `-0.00` or `0e5`. */
  lemma StoredTruthy(s: string)
    ensures Truthy(Stored(s)) <==>
              if ParseLiteral(Core(s)).Some?
              then ParseLiteral(Core(s)).value.whole != 0 || ParseLiteral(Core(s)).value.fracValue != 0
              else s != ""
  {
    if ParseLiteral(Core(s)).Some? {
      LiteralTruthy(ParseLiteral(Core(s)).value);
    }
  }

  /** Text with a character no number is written with is kept as text,
      as every chat id (`U…`, `C…`, `G…`) is. */
  lemma StoredNonNumeric(s: string, i: nat)
    requires i < |s| && !LiteralChar(s[i]) && !IsSqlSpace(s[i])
    ensures Stored(s) == Str(s)
  {
    var t := Core(s);
    if ParseLiteral(t).Some? {
      ParseLiteralChars(t);
    }
    var a, b :| 0 <= a <= b <= |s| && t == s[a..b]
                && (forall k :: 0 <= k < a ==> IsSqlSpace(s[k]))
                && (forall k :: b <= k < |s| ==> IsSqlSpace(s[k]));
    assert a <= i < b;
    assert t[i - a] == s[i];
  }

  /** Text whose first and last characters are not spaces is its own
      core. */
  lemma CoreNoSpace(s: string)
    requires |s| > 0 && !IsSqlSpace(s[0]) && !IsSqlSpace(s[|s| - 1])
    ensures Core(s) == s
  {
    assert LeadingSqlSpace(s) == 0;
    assert s[0..] == s;
  }

  lemma {:induction false} DigitsToEnd(t: string, i: nat)
    requires i <= |t| && forall k :: i <= k < |t| ==> IsDigit(t[k])
    ensures DigitsEnd(t, i) == |t|
    decreases |t| - i
  {
    if i < |t| {
      DigitsToEnd(t, i + 1);
    }
  }

  /** The digit run from `i` ends at the first non-digit `j`. */
  lemma DigitsStopAt(t: string, i: nat, j: nat)
    requires i <= j < |t| && (forall k :: i <= k < j ==> IsDigit(t[k])) && !IsDigit(t[j])
    ensures DigitsEnd(t, i) == j
  {
  }

  /** An unsigned digit string reads as a literal with no point and no
      exponent. */
  lemma ParseDigits(d: string)
    requires |d| > 0 && AllDigits(d)
    ensures ParseLiteral(d) == Some(Literal(false, DecimalValue(d), 0, 0, 0))
  {
    assert ParseLiteral(d) == ParseUnsigned(d, 0);
    DigitsToEnd(d, 0);
    assert ParseUnsigned(d, 0) == Assemble(d, 0, |d|, 0);
    DigitsOnly(d, 0);
  }

  /** The literal made of the digits from `i0` to the end. */
  lemma DigitsOnly(t: string, i0: nat)
    requires i0 < |t| && forall k :: i0 <= k < |t| ==> IsDigit(t[k])
    ensures Assemble(t, i0, |t|, 0) == Some(Literal(i0 == 1 && t[0] == '-', DecimalValue(t[i0..]), 0, 0, 0))
  {
    assert ExponentFrom(t, |t|) == Some(0);
    var v := DigitsValue(t, i0, |t|);
    assert v == DecimalValue(t[i0..]) by { assert t[i0..|t|] == t[i0..]; }
    assert DigitsValue(t, |t|, |t|) == 0 by { assert t[|t|..|t|] == ""; }
  }

  /** A minus sign and a digit string read as a negative literal. */
  lemma ParseNegative(d: string)
    requires |d| > 0 && AllDigits(d)
    ensures ParseLiteral("-" + d) == Some(Literal(true, DecimalValue(d), 0, 0, 0))
  {
    var s := "-" + d;
    assert s[0] == '-';
    forall k | 1 <= k < |s| ensures IsDigit(s[k]) {
      assert s[k] == d[k - 1];
    }
    ParseMinusDigits(s);
    assert s[1..] == d;
  }

  lemma ParseMinusDigits(t: string)
    requires 1 < |t| && t[0] == '-' && forall k :: 1 <= k < |t| ==> IsDigit(t[k])
    ensures ParseLiteral(t) == Some(Literal(true, DecimalValue(t[1..]), 0, 0, 0))
  {
    assert ParseLiteral(t) == ParseUnsigned(t, 1);
    DigitsToEnd(t, 1);
    assert ParseUnsigned(t, 1) == Assemble(t, 1, |t|, 0);
    DigitsOnly(t, 1);
  }

  /** Digits, a point at `i` and digits read as a literal whose fraction
      is the digits after the point. */
  lemma ParsePointedAt(t: string, i: nat)
    requires 0 < i < |t| && t[i] == '.'
    requires forall k :: 0 <= k < i ==> IsDigit(t[k])
    requires forall k :: i < k < |t| ==> IsDigit(t[k])
    ensures ParseLiteral(t) ==
              Some(Literal(false, DigitsValue(t, 0, i), DigitsValue(t, i + 1, |t|), |t| - i - 1, 0))
  {
    assert !IsSign(t[0]);
    assert ParseLiteral(t) == ParseUnsigned(t, 0);
    DigitsStopAt(t, 0, i);
    DigitsToEnd(t, i + 1);
    var frac := |t| - i - 1;
    assert ParseUnsigned(t, 0) == Assemble(t, 0, i, frac);
    assert ExponentFrom(t, |t|) == Some(0);
  }

  /** Digits, a point and digits read as a literal whose fraction is the
      digits after the point. */
  lemma ParsePointed(w: string, f: string)
    requires |w| > 0 && AllDigits(w) && AllDigits(f)
    ensures ParseLiteral(w + "." + f) == Some(Literal(false, DecimalValue(w), DecimalValue(f), |f|, 0))
  {
    var s := w + "." + f;
    forall k | 0 <= k < |w| ensures IsDigit(s[k]) {
      assert s[k] == w[k];
    }
    forall k | |w| < k < |s| ensures IsDigit(s[k]) {
      assert s[k] == f[k - |w| - 1];
    }
    assert s[|w|] == '.';
    ParsePointedAt(s, |w|);
    assert DigitsValue(s, 0, |w|) == DecimalValue(w) by { assert s[0..|w|] == w; }
    assert DigitsValue(s, |w| + 1, |s|) == DecimalValue(f) by { assert s[|w| + 1..|s|] == f; }
  }

  /** A decimal digit string in the 64-bit range, leading zeros allowed, is
      stored as its integer: `"007"` is read back as 7. */
  lemma StoredDigits(d: string)
    requires |d| > 0 && AllDigits(d) && DecimalValue(d) <= MaxInt64
    ensures Stored(d) == Int(DecimalValue(d))
  {
    CoreNoSpace(d);
    ParseDigits(d);
  }

  /** Python's `str()` of a 64-bit integer is stored as that integer, and
      renders back to the same text. */
  lemma IntRoundTrip(n: int, floatRepr: real -> string)
    requires InInt64(n)
    ensures Stored(IntToString(n)) == Int(n)
    ensures Show(Stored(IntToString(n)), floatRepr) == IntToString(n)
  {
    if n >= 0 {
      NatToStringRoundTrip(n);
      StoredDigits(NatToString(n));
    } else {
      StoredNegative(-n);
      assert IntToString(n) == "-" + NatToString(-n);
    }
  }

  lemma StoredNegative(k: nat)
    requires 0 < k && MinInt64 <= -(k as int)
    ensures Stored("-" + NatToString(k)) == Int(-(k as int))
  {
    var d := NatToString(k);
    NatToStringRoundTrip(k);
    NegativeLiteral(d);
    var lit := Literal(true, k, 0, 0, 0);
    assert Mantissa(lit) == k;
    WholeLiteral(lit);
  }

  lemma NegativeLiteral(d: string)
    requires |d| > 0 && AllDigits(d)
    ensures Stored("-" + d) == LiteralStored(Literal(true, DecimalValue(d), 0, 0, 0))
  {
    var s := "-" + d;
    assert s[|s| - 1] == d[|d| - 1];
    CoreNoSpace(s);
    ParseNegative(d);
    StoredLiteral(s, Literal(true, DecimalValue(d), 0, 0, 0));
  }

  /** A literal without point or exponent whose value fits in 64 bits is
      stored as that integer. */
  lemma WholeLiteral(lit: Literal)
    requires lit.fraction == 0 && lit.exponent == 0 && InInt64(Signed(lit))
    ensures LiteralStored(lit) == Int(Signed(lit))
  {
    assert Pow10(0) == 1;
  }

  /** The number that digits `w`, a point and digits `f` denote. */
  function PointedNumber(w: string, f: string): real
    requires AllDigits(w) && AllDigits(f)
  {
    (DecimalValue(w) * Pow10(|f|) + DecimalValue(f)) as real / Pow10(|f|) as real
  }

  /** A time written as digits, a point and digits is stored as the number
      it denotes. */
  lemma StoredPointed(w: string, f: string)
    requires |w| > 0 && AllDigits(w) && AllDigits(f)
    ensures !Stored(w + "." + f).Str?
    ensures NumberOf(Stored(w + "." + f)) == PointedNumber(w, f)
  {
    var lit := Literal(false, DecimalValue(w), DecimalValue(f), |f|, 0);
    PointedLiteral(w, f);
    PointedValue(lit);
  }

  lemma PointedLiteral(w: string, f: string)
    requires |w| > 0 && AllDigits(w) && AllDigits(f)
    ensures Stored(w + "." + f) == LiteralStored(Literal(false, DecimalValue(w), DecimalValue(f), |f|, 0))
  {
    var s := w + "." + f;
    assert s[0] == w[0];
    assert !IsSqlSpace(s[|s| - 1]) by {
      if |f| > 0 { assert s[|s| - 1] == f[|f| - 1]; }
    }
    CoreNoSpace(s);
    ParsePointed(w, f);
    StoredLiteral(s, Literal(false, DecimalValue(w), DecimalValue(f), |f|, 0));
  }

  /** Text that is its own core and reads as `lit` is stored as `lit`. */
  lemma StoredLiteral(s: string, lit: Literal)
    requires Core(s) == s && ParseLiteral(s) == Some(lit)
    ensures Stored(s) == LiteralStored(lit)
  {
  }

  lemma PointedValue(lit: Literal)
    requires !lit.negative && lit.exponent == 0
    ensures LiteralValue(lit) == Mantissa(lit) as real / Pow10(lit.fraction) as real
  {
    assert Signed(lit) == Mantissa(lit);
    if lit.fraction == 0 {
      assert Pow10(0) == 1;
    }
  }

  /** SQLite's `=` agrees with plain equality on stored values: an integer
      and a float are never stored for the same number. This is why the
      lookups and the join may compare stored values with `==`. */
  lemma SqlEqualIff(s: string, t: string)
    ensures SqlEqual(Stored(s), Stored(t)) <==> Stored(s) == Stored(t)
  {
    var a, b := Stored(s), Stored(t);
    if a.Int? && b.Float? {
      assert InInt64(a.n);
    }
    if a.Float? && b.Int? {
      assert InInt64(b.n);
    }
  }

  /** A numeric-looking name is read back as a number: `"0"` becomes the
      integer 0, which is false, and `"007"` becomes 7, which renders as
      `7`. */
  lemma NumericNames(zero: string, agent: string, floatRepr: real -> string)
    requires zero == "0" && agent == "007"
    ensures Stored(zero) == Int(0) && !Truthy(Stored(zero))
    ensures Stored(agent) == Int(7) && Show(Stored(agent), floatRepr) == "7"
  {
    ZeroNameIsFalsy(zero);
    LeadingZerosName(agent, floatRepr);
  }

  /** The name `0` is read back as the integer 0, which is false. */
  lemma ZeroNameIsFalsy(zero: string)
    requires zero == "0"
    ensures Stored(zero) == Int(0) && !Truthy(Stored(zero))
  {
    ZeroValue();
    StoredDigits(zero);
  }

  /** The name `007` is read back as 7 and rendered as `7`. */
  lemma LeadingZerosName(agent: string, floatRepr: real -> string)
    requires agent == "007"
    ensures Stored(agent) == Int(7) && Show(Stored(agent), floatRepr) == "7"
  {
    LeadingZerosValue();
    StoredDigits(agent);
    assert Stored(agent) == Int(7);
    assert IntToString(7) == NatToString(7) == "7";
  }

  lemma ZeroValue()
    ensures AllDigits("0") && DecimalValue("0") == 0
  {
    assert "0"[..0] == "";
  }

  lemma LeadingZerosValue()
    ensures AllDigits("007") && DecimalValue("007") == 7
  {
    assert "007"[..2] == "00" && "00"[..1] == "0" && "0"[..0] == "";
  }

  /** Message times are ordered as numbers: `10.0` comes after `9.5`,
      although it comes before it as text. */
  lemma TimesCompareAsNumbers(nine: string, ten: string)
    requires nine == "9" + "." + "5" && ten == "10" + "." + "0"
    ensures AtMost(Stored(nine), Stored(ten)) && !AtMost(Stored(ten), Stored(nine))
    ensures TextAtMost(ten, nine)
  {
    NineAndAHalf();
    TenPointZero();
    PointedTime("9", "5", 9.5);
    PointedTime("10", "0", 10.0);
    NumbersInOrder(Stored(nine), Stored(ten));
    assert ten[0] < nine[0];
  }

  lemma NineAndAHalf()
    ensures PointedNumber("9", "5") == 9.5
  {
    assert DecimalValue("9") == 9 && DecimalValue("5") == 5 by {
      assert "9"[..0] == "" && "5"[..0] == "";
    }
    assert Pow10(1) == 10;
  }

  lemma TenPointZero()
    ensures PointedNumber("10", "0") == 10.0
  {
    assert DecimalValue("10") == 10 && DecimalValue("0") == 0 by {
      assert "10"[..1] == "1" && "1"[..0] == "" && "0"[..0] == "";
    }
    assert Pow10(1) == 10;
  }

  lemma NumbersInOrder(a: Value, b: Value)
    requires !a.Str? && !b.Str? && NumberOf(a) < NumberOf(b)
    ensures AtMost(a, b) && !AtMost(b, a)
  {
  }

  lemma PointedTime(w: string, f: string, x: real)
    requires |w| > 0 && AllDigits(w) && AllDigits(f)
    requires x == PointedNumber(w, f)
    ensures !Stored(w + "." + f).Str? && NumberOf(Stored(w + "." + f)) == x
  {
    StoredPointed(w, f);
  }
}

=== FILE: bot.dfy ===
/** The chat bot's message handler: the `!leaderboard` command, and score
    recording for messages in the quiz channel, with a reaction for extreme
    scores. Replies are returned as actions instead of being sent. */
module Bot {
  import opened Wrappers
  import opened Text
  import opened Affinity
  import opened Tables
  import opened ScoreParse
  import opened Leaderboard
  import opened Names

  const QuizChannel := "#quizscores"
  const LeaderboardCommand := "!leaderboard"

  datatype Reaction = ExplodingHead | Fire

  function ReactionName(r: Reaction): string {
    match r
    case ExplodingHead => "exploding_head"
    case Fire => "fire"
  }

  /** 0 and 1 earn an exploding head, 14 and 15 earn fire, anything else
      nothing. */
  function ReactionFor(score: nat): (r: Option<Reaction>)
    ensures r == Some(ExplodingHead) <==> score <= 1
    ensures r == Some(Fire) <==> score == 14 || score == 15
    ensures r.None? <==> 2 <= score <= 13 || score > 15
  {
    if score == 0 || score == 1 then Some(ExplodingHead)
    else if score == 14 || score == 15 then Some(Fire)
    else None
  }

  /** The channel gate: names are compared with every leading `#` removed
      from both sides. */
  predicate IsQuizChannel(name: string) {
    LStripChar(name, '#') == LStripChar(QuizChannel, '#')
  }

  /** The gate accepts exactly `quizscores` behind any number of `#`. */
  lemma IsQuizChannelIff(name: string)
    ensures IsQuizChannel(name) <==> exists k: nat :: name == Repeat('#', k) + "quizscores"
  {
    QuizChannelStripped();
    if IsQuizChannel(name) {
      LStripCharSplit(name, '#');
      assert name == Repeat('#', |name| - |"quizscores"|) + "quizscores";
    }
    forall k: nat | name == Repeat('#', k) + "quizscores" ensures IsQuizChannel(name) {
      LStripCharRepeat('#', k, "quizscores");
    }
  }

  lemma QuizChannelStripped()
    ensures LStripChar(QuizChannel, '#') == "quizscores"
  {
    assert QuizChannel[1..] == "quizscores";
    assert LStripChar("quizscores", '#') == "quizscores";
  }

  // ---------------------------------------------------------------------
  // Leaderboard text.

  function QuizNoun(n: nat): string {
    if n == 1 then "quiz" else "quizzes"
  }

  /** How Python renders floats: `oneDecimal` stands for the `:.1f`
      format of an average, `floatRepr` for `str()` of a name the store
      read back as a float. */
  datatype Formats = Formats(oneDecimal: real -> string, floatRepr: real -> string)

  /** One line: the name as the f-string renders the stored value, the
      average to one decimal, and the number of quizzes with a singular or
      plural noun. */
  function BoardLine(e: Entry, fmt: Formats): string {
    Show(e.name, fmt.floatRepr) + " `" + fmt.oneDecimal(e.averageScore) + "` _("
      + NatToString(e.totalQuizzes) + " " + QuizNoun(e.totalQuizzes) + ")_"
  }

  function BoardLines(board: seq<Entry>, fmt: Formats): seq<string> {
    seq(|board|, i requires 0 <= i < |board| => BoardLine(board[i], fmt))
  }

  /** The block's text: the lines joined by newlines. It is empty exactly
      for an empty board and otherwise starts with the top entry's line. */
  function BoardText(board: seq<Entry>, fmt: Formats): (r: string)
    ensures r == "" <==> |board| == 0
    ensures |board| > 0 ==> BoardLine(board[0], fmt) <= r
  {
    FirstLineLeads(board, fmt);
    JoinLines(BoardLines(board, fmt))
  }

  lemma FirstLineLeads(board: seq<Entry>, fmt: Formats)
    ensures JoinLines(BoardLines(board, fmt)) == "" <==> |board| == 0
    ensures |board| > 0 ==> BoardLine(board[0], fmt) <= JoinLines(BoardLines(board, fmt))
  {
    var lines := BoardLines(board, fmt);
    if |board| > 0 {
      var first := BoardLine(board[0], fmt);
      assert lines[0] == first;
      assert first[|first| - 1] == '_';
      if |board| > 1 {
        assert JoinLines(lines) == first + ("\n" + JoinLines(lines[1..]));
      }
    }
  }

  /** A line never contains a newline when the rendered name and average
      do not. */
  lemma BoardLineNoNewline(e: Entry, fmt: Formats)
    requires NoNewline(Show(e.name, fmt.floatRepr)) && NoNewline(fmt.oneDecimal(e.averageScore))
    ensures NoNewline(BoardLine(e, fmt))
  {
    var count := NatToString(e.totalQuizzes);
    assert NoNewline(count) by {
      forall i | 0 <= i < |count| ensures count[i] != '\n' {
        assert IsDigit(count[i]);
      }
    }
  }

  /** The posted text holds one line per leaderboard entry, in order, each
      naming the entry's quiz count with "quiz" for one and "quizzes"
      otherwise. */
  lemma BoardTextLines(board: seq<Entry>, fmt: Formats)
    requires |board| >= 1
    requires forall i :: 0 <= i < |board| ==>
               NoNewline(Show(board[i].name, fmt.floatRepr)) && NoNewline(fmt.oneDecimal(board[i].averageScore))
    ensures var lines := SplitLines(BoardText(board, fmt));
            && |lines| == |board|
            && forall i :: 0 <= i < |board| ==>
                 && lines[i] == BoardLine(board[i], fmt)
                 && (QuizNoun(board[i].totalQuizzes) == "quiz" <==> board[i].totalQuizzes == 1)
  {
    var lines := BoardLines(board, fmt);
    forall i | 0 <= i < |board| ensures NoNewline(lines[i]) {
      BoardLineNoNewline(board[i], fmt);
    }
    SplitJoinLines(lines);
  }

  // ---------------------------------------------------------------------
  // The message handler.

  /** A message event. `user` is absent on messages posted by bots, and
      `text` on messages without text. */
  datatype Event = Event(channel: string, user: Option<string>, text: Option<string>, ts: string)

  datatype Action =
    | Post(channel: string, text: string)
    | React(channel: string, ts: string, reaction: Reaction)

  datatype Outcome = Outcome(db: Db, actions: seq<Action>)

  /** `rows` is what the leaderboard query returns for `db`: the join of
      scores and users, newest first. */
  predicate IsBoardQuery(db: Db, rows: seq<BoardRow>) {
    multiset(rows) == multiset(JoinScoresUsers(db.scores, db.users)) && NewestFirst(rows)
  }

  /** `write_leaderboard_to_channel`: with no rows, `get_leaderboard` gives
      `None`, building the block from it raises and the handler swallows
      it, so nothing is posted. */
  function LeaderboardActions(channel: string, rows: seq<BoardRow>, fmt: Formats): (acts: seq<Action>)
    ensures |acts| <= 1
    ensures |acts| == 1 <==> |rows| > 0
    ensures |acts| == 1 ==> acts[0] == Post(channel, BoardText(GetLeaderboard(rows).value, fmt))
  {
    match GetLeaderboard(rows)
    case None => []
    case Some(board) => [Post(channel, BoardText(board, fmt))]
  }

  function ReactionActions(channel: string, ts: string, score: nat): seq<Action> {
    match ReactionFor(score)
    case None => []
    case Some(r) => [React(channel, ts, r)]
  }

  /** `message`. The store after an exception is the store as it was when
      the exception was raised: earlier appends have been committed. The
      command changes nothing and posts at most once; any other message appends at most one channel row, one user row and one
      score row, that of the message, and reacts to it only after
      recording it. */
  function HandleMessage(db: Db, ev: Event, dir: Directory, fmt: Formats, rows: seq<BoardRow>): (o: Outcome)
    requires IsBoardQuery(db, rows)
    ensures ev.text == Some(LeaderboardCommand) ==> o.db == db && |o.actions| <= 1
    ensures |db.channels| <= |o.db.channels| <= |db.channels| + 1 && o.db.channels[..|db.channels|] == db.channels
    ensures |db.users| <= |o.db.users| <= |db.users| + 1 && o.db.users[..|db.users|] == db.users
    ensures || o.db.scores == db.scores
            || (&& ev.text != Some(LeaderboardCommand) && ev.user.Some? && ParseScore(ev.text).Some?
                && o.db.scores == db.scores + [ScoreRow(Stored(ev.user.value), Stored(ev.channel), ParseScore(ev.text).value, Stored(ev.ts))])
    ensures ev.text != Some(LeaderboardCommand) ==>
              (forall a :: a in o.actions ==> a.React? && a.channel == ev.channel && a.ts == ev.ts)
              && (o.actions != [] ==> o.db.scores != db.scores)
  {
    if ev.text == Some(LeaderboardCommand) then
      Outcome(db, LeaderboardActions(ev.channel, rows, fmt))
    else
      ScoreMessage(db, ev, dir)
  }

  /** Everything after the command test: the channel gate, the score, the
      user, and the insert with its reaction. */
  function ScoreMessage(db: Db, ev: Event, dir: Directory): (o: Outcome)
    ensures |db.channels| <= |o.db.channels| <= |db.channels| + 1 && o.db.channels[..|db.channels|] == db.channels
    ensures |db.users| <= |o.db.users| <= |db.users| + 1 && o.db.users[..|db.users|] == db.users
    ensures || o.db.scores == db.scores
            || (&& ev.user.Some? && ParseScore(ev.text).Some?
                && o.db.scores == db.scores + [ScoreRow(Stored(ev.user.value), Stored(ev.channel), ParseScore(ev.text).value, Stored(ev.ts))])
    ensures forall a :: a in o.actions ==> a.React? && a.channel == ev.channel && a.ts == ev.ts
    ensures o.actions != [] ==> o.db.scores != db.scores
  {
    match GetChannelName(db, ev.channel, dir)
    case Raised(_) => Outcome(db, [])
    case Ok(Lookup(channelName, db1)) =>
      // A name the store read back as a number passes `if not channel_name`
      // when non-zero, and then `lstrip` raises: the handler swallows it.
      if channelName.None? || !Truthy(channelName.value) || !channelName.value.Str?
         || !IsQuizChannel(channelName.value.s) then
        Outcome(db1, [])
      else match ParseScore(ev.text)
        case None => Outcome(db1, [])
        case Some(score) => RecordFromUser(db1, ev, dir, score)
  }

  function RecordFromUser(db: Db, ev: Event, dir: Directory, score: nat): (o: Outcome)
    ensures o.db.channels == db.channels
    ensures |db.users| <= |o.db.users| <= |db.users| + 1 && o.db.users[..|db.users|] == db.users
    ensures || o.db.scores == db.scores
            || (ev.user.Some? && o.db.scores == db.scores + [ScoreRow(Stored(ev.user.value), Stored(ev.channel), score, Stored(ev.ts))])
    ensures forall a :: a in o.actions ==> a.React? && a.channel == ev.channel && a.ts == ev.ts
    ensures o.actions != [] ==> o.db.scores != db.scores
    ensures ev.user.None? ==> o == Outcome(db, [])
  {
    // Without a user the store finds no row and `None.startswith` raises.
    if ev.user.None? then Outcome(db, [])
    else match GetUserName(db, ev.user.value, dir)
    case Raised(_) => Outcome(db, [])
    case Ok(Lookup(userName, db2)) =>
      if !Hit(userName) then Outcome(db2, [])
      else Outcome(AddScore(db2, ev.user.value, ev.channel, score, ev.ts), ReactionActions(ev.channel, ev.ts, score))
  }

  /** The command posts the leaderboard to whichever channel asked, records
      nothing, and posts nothing when no score has a known user. */
  lemma LeaderboardCommandOnly(db: Db, ev: Event, dir: Directory, fmt: Formats, rows: seq<BoardRow>)
    requires IsBoardQuery(db, rows)
    requires ev.text == Some(LeaderboardCommand)
    ensures HandleMessage(db, ev, dir, fmt, rows).db == db
    ensures |HandleMessage(db, ev, dir, fmt, rows).actions| <= 1
    ensures forall a :: a in HandleMessage(db, ev, dir, fmt, rows).actions ==> a.Post? && a.channel == ev.channel
    ensures HandleMessage(db, ev, dir, fmt, rows).actions == [] <==>
              forall k :: 0 <= k < |db.scores| ==> !HasUserRow(db.users, db.scores[k].userId)
  {
    var acts := LeaderboardActions(ev.channel, rows, fmt);
    assert HandleMessage(db, ev, dir, fmt, rows) == Outcome(db, acts);
    BoardQueryEmptyIff(db, rows);
  }

  /** The query returns rows exactly when some score's user has a users
      row. */
  lemma BoardQueryEmptyIff(db: Db, rows: seq<BoardRow>)
    requires IsBoardQuery(db, rows)
    ensures |rows| == 0 <==> forall k :: 0 <= k < |db.scores| ==> !HasUserRow(db.users, db.scores[k].userId)
  {
    JoinEmptyIff(db.scores, db.users);
    BoardQuerySize(db, rows);
  }

  /** The query returns one row per joined pair. */
  lemma BoardQuerySize(db: Db, rows: seq<BoardRow>)
    requires IsBoardQuery(db, rows)
    ensures |rows| == |JoinScoresUsers(db.scores, db.users)|
  {
    assert |multiset(rows)| == |multiset(JoinScoresUsers(db.scores, db.users))|;
  }

  /** Which score, if any, a message records: one that parses, in a channel
      whose name is text made of `quizscores` behind any number of `#`, from
      a user whose name Python finds true. */
  ghost predicate Records(db: Db, ev: Event, dir: Directory, score: nat) {
    && ev.text != Some(LeaderboardCommand)
    && GetChannelName(db, ev.channel, dir).Ok?
    && var c := GetChannelName(db, ev.channel, dir).value;
    && c.name.Some? && c.name.value.Str? && (exists k: nat :: c.name.value.s == Repeat('#', k) + "quizscores")
    && ParseScore(ev.text) == Some(score)
    && ev.user.Some? && GetUserName(c.db, ev.user.value, dir).Ok?
    && Hit(GetUserName(c.db, ev.user.value, dir).value.name)
  }

  /** `Records` as the handler tests it, with the gate written as
      `lstrip`. */
  predicate Accepts(db: Db, ev: Event, dir: Directory, score: nat) {
    && ev.text != Some(LeaderboardCommand)
    && GetChannelName(db, ev.channel, dir).Ok?
    && var c := GetChannelName(db, ev.channel, dir).value;
    && c.name.Some? && Truthy(c.name.value) && c.name.value.Str? && IsQuizChannel(c.name.value.s)
    && ParseScore(ev.text) == Some(score)
    && ev.user.Some? && GetUserName(c.db, ev.user.value, dir).Ok?
    && Hit(GetUserName(c.db, ev.user.value, dir).value.name)
  }

  lemma RecordsIff(db: Db, ev: Event, dir: Directory, score: nat)
    ensures Records(db, ev, dir, score) <==> Accepts(db, ev, dir, score)
  {
    var c := GetChannelName(db, ev.channel, dir);
    if c.Ok? && c.value.name.Some? && c.value.name.value.Str? {
      IsQuizChannelIff(c.value.name.value.s);
      forall k: nat ensures |Repeat('#', k) + "quizscores"| > 0 { }
    }
  }

  /** A recorded message appends exactly its score row, with the message's
      user, channel and time, and reacts as `ReactionFor` says. */
  lemma HandleMessageRecords(db: Db, ev: Event, dir: Directory, fmt: Formats, rows: seq<BoardRow>, score: nat)
    requires IsBoardQuery(db, rows)
    requires Records(db, ev, dir, score)
    ensures HandleMessage(db, ev, dir, fmt, rows).db.scores ==
              db.scores + [ScoreRow(Stored(ev.user.value), Stored(ev.channel), score, Stored(ev.ts))]
    ensures HandleMessage(db, ev, dir, fmt, rows).actions == ReactionActions(ev.channel, ev.ts, score)
  {
    RecordsIff(db, ev, dir, score);
    AcceptedScoreMessage(db, ev, dir, score);
  }

  lemma AcceptedScoreMessage(db: Db, ev: Event, dir: Directory, score: nat)
    requires Accepts(db, ev, dir, score)
    ensures ScoreMessage(db, ev, dir).db.scores ==
              db.scores + [ScoreRow(Stored(ev.user.value), Stored(ev.channel), score, Stored(ev.ts))]
    ensures ScoreMessage(db, ev, dir).actions == ReactionActions(ev.channel, ev.ts, score)
  {
    var c := GetChannelName(db, ev.channel, dir).value;
    assert ScoreMessage(db, ev, dir) == RecordFromUser(c.db, ev, dir, score);
    KnownUserRecords(c.db, ev, dir, score);
  }

  /** With a user whose name Python finds true, the score row is appended
      and the reaction chosen. */
  lemma KnownUserRecords(db: Db, ev: Event, dir: Directory, score: nat)
    requires ev.user.Some? && GetUserName(db, ev.user.value, dir).Ok?
    requires Hit(GetUserName(db, ev.user.value, dir).value.name)
    ensures RecordFromUser(db, ev, dir, score).db.scores ==
              db.scores + [ScoreRow(Stored(ev.user.value), Stored(ev.channel), score, Stored(ev.ts))]
    ensures RecordFromUser(db, ev, dir, score).actions == ReactionActions(ev.channel, ev.ts, score)
  {
    var u := GetUserName(db, ev.user.value, dir).value;
    assert u.db.scores == db.scores;
  }

  /** Any other message leaves the scores table alone and reacts to
      nothing. */
  lemma HandleMessageIgnores(db: Db, ev: Event, dir: Directory, fmt: Formats, rows: seq<BoardRow>)
    requires IsBoardQuery(db, rows)
    requires forall score: nat :: !Records(db, ev, dir, score)
    ensures HandleMessage(db, ev, dir, fmt, rows).db.scores == db.scores
    ensures forall a :: a in HandleMessage(db, ev, dir, fmt, rows).actions ==> a.Post?
  {
    var score := ParseScore(ev.text);
    if score.Some? {
      RecordsIff(db, ev, dir, score.value);
    }
  }
}

=== FILE: leaderboard.dfy ===
/** `get_leaderboard`: joined score rows, newest first, grouped by user in
    order of first appearance, summarised, and stably sorted by the mean of
    each user's latest ten scores. */
module Leaderboard {
  import opened Wrappers
  import opened Affinity
  import opened Tables
  import StableSort

  /** How many of a user's newest scores make up the recent average. */
  const RecentWindow: nat := 10

  // ---------------------------------------------------------------------
  // Row order delivered by the query: ORDER BY scores.ts DESC.

  /** Each row's time is at most the time of every row before it, in the
      order the store sorts the stored values. */
  predicate NewestFirst(rows: seq<BoardRow>) {
    forall i, j :: 0 <= i < j < |rows| ==> AtMost(rows[j].ts, rows[i].ts)
  }

  // ---------------------------------------------------------------------
  // What each user's group must hold, stated directly on the rows.

  /** The user's scores, in row order. */
  function ScoresOf(rows: seq<BoardRow>, uid: Value): seq<int> {
    if |rows| == 0 then []
    else (if rows[0].userId == uid then [rows[0].score] else []) + ScoresOf(rows[1..], uid)
  }

  /** The position of the user's first row. */
  function FirstRowOf(rows: seq<BoardRow>, uid: Value): Option<nat> {
    FirstIndex(rows, (r: BoardRow) => r.userId == uid)
  }

  /** The name on the user's first row. */
  function FirstName(rows: seq<BoardRow>, uid: Value): Option<Value> {
    match FirstRowOf(rows, uid)
    case None => None
    case Some(p) => Some(rows[p].name)
  }

  /** Where the user first appears; users without rows sort last. */
  function PosOf(rows: seq<BoardRow>, uid: Value): int {
    match FirstRowOf(rows, uid)
    case None => |rows|
    case Some(p) => p
  }

  lemma {:induction false} ScoresOfAppend(rows: seq<BoardRow>, r: BoardRow, uid: Value)
    ensures ScoresOf(rows + [r], uid) == ScoresOf(rows, uid) + (if r.userId == uid then [r.score] else [])
  {
    if |rows| > 0 {
      assert (rows + [r])[1..] == rows[1..] + [r];
      ScoresOfAppend(rows[1..], r, uid);
    }
  }

  lemma {:induction false} ScoresOfAbsent(rows: seq<BoardRow>, uid: Value)
    requires FirstRowOf(rows, uid).None?
    ensures ScoresOf(rows, uid) == []
  {
    if |rows| > 0 {
      assert FirstRowOf(rows[1..], uid).None? by {
        assert forall j :: 0 <= j < |rows[1..]| ==> rows[1..][j] == rows[j + 1];
      }
      ScoresOfAbsent(rows[1..], uid);
    }
  }

  lemma FirstRowOfAppend(rows: seq<BoardRow>, r: BoardRow, uid: Value)
    ensures FirstRowOf(rows + [r], uid) ==
              if FirstRowOf(rows, uid).Some? then FirstRowOf(rows, uid)
              else if r.userId == uid then Some(|rows|)
              else None
  {
    var rows' := rows + [r];
    assert forall j :: 0 <= j < |rows| ==> rows'[j] == rows[j];
    var before := FirstRowOf(rows, uid);
    var after := FirstRowOf(rows', uid);
    if before.Some? {
      assert !(after.value < before.value);
    } else if r.userId == uid {
      assert rows'[|rows|].userId == uid;
    }
  }

  // ---------------------------------------------------------------------
  // Grouping, as the source's loop over the rows does it.

  datatype Group = Group(userId: Value, name: Value, scores: seq<int>)

  /** One turn of the loop: append the score to the user's group, or open
      a group named from this row. */
  function AddRow(groups: seq<Group>, r: BoardRow): seq<Group> {
    match FirstIndex(groups, (g: Group) => g.userId == r.userId)
    case Some(i) => groups[i := groups[i].(scores := groups[i].scores + [r.score])]
    case None => groups + [Group(r.userId, r.name, [r.score])]
  }

  /** Total number of scores held by the groups. */
  function TotalCount(groups: seq<Group>): nat {
    if |groups| == 0 then 0 else |groups[0].scores| + TotalCount(groups[1..])
  }

  lemma {:induction false} TotalCountAppend(groups: seq<Group>, g: Group)
    ensures TotalCount(groups + [g]) == TotalCount(groups) + |g.scores|
  {
    if |groups| > 0 {
      assert (groups + [g])[1..] == groups[1..] + [g];
      TotalCountAppend(groups[1..], g);
    }
  }

  predicate DistinctIds(groups: seq<Group>) {
    forall i, j :: 0 <= i < j < |groups| ==> groups[i].userId != groups[j].userId
  }

  /** `groups` is exactly the grouping of `rows`: one group per user, named
      from the user's first row, holding all the user's scores in row
      order, in order of first appearance, and together holding every
      row's score. */
  predicate GroupsOf(rows: seq<BoardRow>, groups: seq<Group>) {
    && DistinctIds(groups)
    && GroupsMatchRows(rows, groups)
    && CoversRows(rows, groups)
    && FirstAppearanceOrder(rows, groups)
    && TotalCount(groups) == |rows|
  }

  /** Each group is named from its user's first row and holds all of the
      user's scores in row order. */
  predicate GroupsMatchRows(rows: seq<BoardRow>, groups: seq<Group>) {
    forall i :: 0 <= i < |groups| ==> GroupMatchesRows(rows, groups[i])
  }

  predicate GroupMatchesRows(rows: seq<BoardRow>, g: Group) {
    && FirstName(rows, g.userId) == Some(g.name)
    && g.scores == ScoresOf(rows, g.userId)
    && |g.scores| > 0
  }

  /** Every row's user has a group. */
  predicate CoversRows(rows: seq<BoardRow>, groups: seq<Group>) {
    forall k :: 0 <= k < |rows| ==> HasGroup(groups, rows[k].userId)
  }

  predicate HasGroup(groups: seq<Group>, uid: Value) {
    exists i :: 0 <= i < |groups| && groups[i].userId == uid
  }

  /** Groups appear in the order their users first appear in the rows. */
  predicate FirstAppearanceOrder(rows: seq<BoardRow>, groups: seq<Group>) {
    forall i, j :: 0 <= i < j < |groups| ==> PosOf(rows, groups[i].userId) < PosOf(rows, groups[j].userId)
  }

  lemma {:induction false} TotalCountUpdate(groups: seq<Group>, i: nat, g: Group)
    requires i < |groups|
    ensures TotalCount(groups[i := g]) == TotalCount(groups) - |groups[i].scores| + |g.scores|
  {
    if i > 0 {
      assert groups[i := g][1..] == groups[1..][i - 1 := g];
      TotalCountUpdate(groups[1..], i - 1, g);
    } else {
      assert groups[i := g][1..] == groups[1..];
    }
  }

  /** How appending a row changes the per-user views of the rows. */
  lemma AppendViews(rows: seq<BoardRow>, r: BoardRow, uid: Value)
    ensures FirstRowOf(rows, uid).Some? ==>
              && FirstName(rows + [r], uid) == FirstName(rows, uid)
              && PosOf(rows + [r], uid) == PosOf(rows, uid)
              && PosOf(rows, uid) < |rows|
    ensures FirstRowOf(rows, uid).None? && r.userId == uid ==>
              FirstName(rows + [r], uid) == Some(r.name) && PosOf(rows + [r], uid) == |rows|
    ensures ScoresOf(rows + [r], uid) == ScoresOf(rows, uid) + (if r.userId == uid then [r.score] else [])
  {
    FirstRowOfAppend(rows, r, uid);
    ScoresOfAppend(rows, r, uid);
    var rows' := rows + [r];
    if FirstRowOf(rows, uid).Some? {
      assert rows'[FirstRowOf(rows, uid).value] == rows[FirstRowOf(rows, uid).value];
    }
  }

  /** Coverage survives an appended row when every old group keeps its
      user and the new row's user has a group. */
  lemma CoversAfterAppend(rows: seq<BoardRow>, r: BoardRow, groups: seq<Group>, groups': seq<Group>)
    requires CoversRows(rows, groups)
    requires |groups| <= |groups'|
    requires forall j :: 0 <= j < |groups| ==> groups'[j].userId == groups[j].userId
    requires HasGroup(groups', r.userId)
    ensures CoversRows(rows + [r], groups')
  {
    var rows' := rows + [r];
    forall k | 0 <= k < |rows'| ensures HasGroup(groups', rows'[k].userId) {
      if k < |rows| {
        assert rows'[k] == rows[k];
        assert HasGroup(groups, rows[k].userId);
        var j :| 0 <= j < |groups| && groups[j].userId == rows[k].userId;
        assert groups'[j].userId == rows'[k].userId;
      }
    }
  }

  /** Appending a row leaves every grouped user's name and first position
      alone and extends the scores of the row's own user only. */
  lemma GroupedUsersAfterAppend(rows: seq<BoardRow>, groups: seq<Group>, r: BoardRow)
    requires GroupsMatchRows(rows, groups)
    ensures forall j :: 0 <= j < |groups| ==>
              && FirstName(rows + [r], groups[j].userId) == FirstName(rows, groups[j].userId)
              && PosOf(rows + [r], groups[j].userId) == PosOf(rows, groups[j].userId) < |rows|
              && ScoresOf(rows + [r], groups[j].userId) ==
                   ScoresOf(rows, groups[j].userId) + (if r.userId == groups[j].userId then [r.score] else [])
  {
    forall j | 0 <= j < |groups|
      ensures FirstName(rows + [r], groups[j].userId) == FirstName(rows, groups[j].userId)
      ensures PosOf(rows + [r], groups[j].userId) == PosOf(rows, groups[j].userId) < |rows|
      ensures ScoresOf(rows + [r], groups[j].userId) ==
                ScoresOf(rows, groups[j].userId) + (if r.userId == groups[j].userId then [r.score] else [])
    {
      assert GroupMatchesRows(rows, groups[j]);
      AppendViews(rows, r, groups[j].userId);
    }
  }

  /** Groups that keep their users, each still first seen at the same
      place, keep their order and stay distinct. */
  lemma SameUsersSameOrder(rows: seq<BoardRow>, rows': seq<BoardRow>, groups: seq<Group>, groups': seq<Group>)
    requires DistinctIds(groups) && FirstAppearanceOrder(rows, groups)
    requires |groups'| == |groups|
    requires forall j :: 0 <= j < |groups| ==> groups'[j].userId == groups[j].userId
    requires forall j :: 0 <= j < |groups| ==> PosOf(rows', groups[j].userId) == PosOf(rows, groups[j].userId)
    ensures DistinctIds(groups') && FirstAppearanceOrder(rows', groups')
  {
  }

  /** Extending the row's user's group keeps every group matching the
      rows. */
  lemma ExtendedGroupMatches(rows: seq<BoardRow>, groups: seq<Group>, r: BoardRow, i: nat)
    requires GroupsMatchRows(rows, groups) && DistinctIds(groups)
    requires i < |groups| && groups[i].userId == r.userId
    ensures GroupsMatchRows(rows + [r], groups[i := groups[i].(scores := groups[i].scores + [r.score])])
  {
    var groups' := groups[i := groups[i].(scores := groups[i].scores + [r.score])];
    GroupedUsersAfterAppend(rows, groups, r);
    forall j | 0 <= j < |groups| ensures GroupMatchesRows(rows + [r], groups'[j]) {
      assert GroupMatchesRows(rows, groups[j]);
    }
  }

  /** A row of a user who already has a group extends that group. */
  lemma AddRowExisting(rows: seq<BoardRow>, groups: seq<Group>, r: BoardRow, i: nat)
    requires GroupsOf(rows, groups)
    requires i < |groups| && groups[i].userId == r.userId
    ensures GroupsOf(rows + [r], groups[i := groups[i].(scores := groups[i].scores + [r.score])])
  {
    var rows' := rows + [r];
    var groups' := groups[i := groups[i].(scores := groups[i].scores + [r.score])];
    assert DistinctIds(groups') && FirstAppearanceOrder(rows', groups') by {
      GroupedUsersAfterAppend(rows, groups, r);
      SameUsersSameOrder(rows, rows', groups, groups');
    }
    ExtendedGroupMatches(rows, groups, r, i);
    assert TotalCount(groups') == |rows'| by {
      TotalCountUpdate(groups, i, groups'[i]);
    }
    assert CoversRows(rows', groups') by {
      CoversAfterAppend(rows, r, groups, groups');
    }
  }

  /** The new row's user, absent so far, is named by this row, first seen
      at its position, and holds just its score. */
  lemma NewUserAfterAppend(rows: seq<BoardRow>, groups: seq<Group>, r: BoardRow)
    requires CoversRows(rows, groups)
    requires forall j :: 0 <= j < |groups| ==> groups[j].userId != r.userId
    ensures GroupMatchesRows(rows + [r], Group(r.userId, r.name, [r.score]))
    ensures PosOf(rows + [r], r.userId) == |rows|
  {
    forall k | 0 <= k < |rows| ensures rows[k].userId != r.userId {
      assert HasGroup(groups, rows[k].userId);
    }
    assert FirstRowOf(rows, r.userId).None?;
    ScoresOfAbsent(rows, r.userId);
    AppendViews(rows, r, r.userId);
  }

  /** A group for a user not seen before goes last, after every group
      whose user appears earlier. */
  lemma OrderWithNewLast(rows: seq<BoardRow>, rows': seq<BoardRow>, groups: seq<Group>, g: Group)
    requires FirstAppearanceOrder(rows, groups)
    requires forall j :: 0 <= j < |groups| ==> PosOf(rows', groups[j].userId) == PosOf(rows, groups[j].userId) < |rows|
    requires PosOf(rows', g.userId) == |rows|
    ensures FirstAppearanceOrder(rows', groups + [g])
  {
    var groups' := groups + [g];
    forall i, j | 0 <= i < j < |groups'|
      ensures PosOf(rows', groups'[i].userId) < PosOf(rows', groups'[j].userId)
    {
      assert groups'[i] == groups[i];
      if j < |groups| {
        assert groups'[j] == groups[j];
      }
    }
  }

  /** Groups that each match the new rows, extended by one more that does. */
  lemma MatchWithNewLast(rows': seq<BoardRow>, groups: seq<Group>, g: Group)
    requires forall j :: 0 <= j < |groups| ==> GroupMatchesRows(rows', groups[j])
    requires GroupMatchesRows(rows', g)
    ensures GroupsMatchRows(rows', groups + [g])
  {
    var groups' := groups + [g];
    forall j | 0 <= j < |groups'| ensures GroupMatchesRows(rows', groups'[j]) {
      if j < |groups| {
        assert groups'[j] == groups[j];
      }
    }
  }

  /** A row of a user without a group opens a new last group. */
  lemma AddRowNew(rows: seq<BoardRow>, groups: seq<Group>, r: BoardRow)
    requires GroupsOf(rows, groups)
    requires forall j :: 0 <= j < |groups| ==> groups[j].userId != r.userId
    ensures GroupsOf(rows + [r], groups + [Group(r.userId, r.name, [r.score])])
  {
    var rows' := rows + [r];
    var g := Group(r.userId, r.name, [r.score]);
    var groups' := groups + [g];
    assert DistinctIds(groups') by {
      assert forall j :: 0 <= j < |groups| ==> groups'[j] == groups[j];
    }
    assert GroupsMatchRows(rows', groups') by {
      NewUserAfterAppend(rows, groups, r);
      GroupedUsersAfterAppend(rows, groups, r);
      forall j | 0 <= j < |groups| ensures GroupMatchesRows(rows', groups[j]) {
        assert GroupMatchesRows(rows, groups[j]);
      }
      MatchWithNewLast(rows', groups, g);
    }
    assert FirstAppearanceOrder(rows', groups') by {
      NewUserAfterAppend(rows, groups, r);
      GroupedUsersAfterAppend(rows, groups, r);
      OrderWithNewLast(rows, rows', groups, g);
    }
    assert TotalCount(groups') == |rows'| by {
      TotalCountAppend(groups, g);
    }
    assert CoversRows(rows', groups') by {
      assert groups'[|groups|].userId == r.userId;
      CoversAfterAppend(rows, r, groups, groups');
    }
  }

  lemma AddRowKeepsGroupsOf(rows: seq<BoardRow>, groups: seq<Group>, r: BoardRow)
    requires GroupsOf(rows, groups)
    ensures GroupsOf(rows + [r], AddRow(groups, r))
  {
    match FirstIndex(groups, (g: Group) => g.userId == r.userId)
    case Some(i) => AddRowExisting(rows, groups, r, i);
    case None => AddRowNew(rows, groups, r);
  }

  /** The loop over the rows, oldest turn first: it builds exactly the
      grouping `GroupsOf` describes. */
  function GroupRows(rows: seq<BoardRow>): (groups: seq<Group>)
    ensures GroupsOf(rows, groups)
  {
    if |rows| == 0 then []
    else
      var n := |rows|;
      var before := GroupRows(rows[..n - 1]);
      AddRowKeepsGroupsOf(rows[..n - 1], before, rows[n - 1]);
      assert rows[..n - 1] + [rows[n - 1]] == rows;
      AddRow(before, rows[n - 1])
  }

  // ---------------------------------------------------------------------
  // Per-user figures.

  function Sum(s: seq<int>): int {
    if |s| == 0 then 0 else s[0] + Sum(s[1..])
  }

  /** Python's `sum(s) / len(s)`, exact. */
  function Mean(s: seq<int>): real
    requires |s| > 0
  {
    Sum(s) as real / |s| as real
  }

  function MinOf(s: seq<int>): (m: int)
    requires |s| > 0
    ensures m in s && forall i :: 0 <= i < |s| ==> m <= s[i]
  {
    if |s| == 1 then s[0]
    else var m := MinOf(s[1..]); if s[0] <= m then s[0] else m
  }

  function MaxOf(s: seq<int>): (m: int)
    requires |s| > 0
    ensures m in s && forall i :: 0 <= i < |s| ==> s[i] <= m
  {
    if |s| == 1 then s[0]
    else var m := MaxOf(s[1..]); if s[0] >= m then s[0] else m
  }

  lemma {:induction false} SumBounds(s: seq<int>, lo: int, hi: int)
    requires forall i :: 0 <= i < |s| ==> lo <= s[i] <= hi
    ensures |s| * lo <= Sum(s) <= |s| * hi
  {
    if |s| > 0 {
      SumBounds(s[1..], lo, hi);
      assert |s| * lo == lo + (|s| - 1) * lo;
      assert |s| * hi == hi + (|s| - 1) * hi;
    }
  }

  lemma DivBounds(sum: int, n: nat, lo: int, hi: int)
    requires n > 0 && n * lo <= sum <= n * hi
    ensures lo as real <= sum as real / n as real <= hi as real
  {
    var q := sum as real / n as real;
    var nr := n as real;
    assert q * nr == sum as real;
    assert (n * lo) as real == nr * lo as real;
    assert (n * hi) as real == nr * hi as real;
    assert nr * (q - lo as real) >= 0.0;
    assert nr * (hi as real - q) >= 0.0;
  }

  /** A mean lies between the smallest and the largest value. */
  lemma MeanBounds(s: seq<int>)
    requires |s| > 0
    ensures MinOf(s) as real <= Mean(s) <= MaxOf(s) as real
  {
    SumBounds(s, MinOf(s), MaxOf(s));
    DivBounds(Sum(s), |s|, MinOf(s), MaxOf(s));
  }

  function Min(a: nat, b: nat): nat {
    if a <= b then a else b
  }

  /** One leaderboard line's data, the source's per-user dictionary (whose
      key, the user id, is kept here as a field). */
  datatype Entry = Entry(
    userId: Value,
    name: Value,
    scores: seq<int>,
    totalQuizzes: nat,
    averageScore: real,
    recentQuizzes: nat,
    recentAverage: real)

  /** The figures of one user's group: the count and mean of all scores,
      and the count and mean of the newest ten. Both averages lie between
      the smallest and the largest score they average. */
  function Summarise(g: Group): (e: Entry)
    requires |g.scores| > 0
    ensures e.userId == g.userId && e.name == g.name && e.scores == g.scores
    ensures e.totalQuizzes == |g.scores| && 1 <= e.recentQuizzes <= RecentWindow
    ensures e.recentQuizzes == |g.scores| || e.recentQuizzes == RecentWindow < |g.scores|
    ensures MinOf(g.scores) as real <= e.averageScore <= MaxOf(g.scores) as real
    ensures MinOf(g.scores[..e.recentQuizzes]) as real <= e.recentAverage <= MaxOf(g.scores[..e.recentQuizzes]) as real
  {
    var recent := g.scores[..Min(RecentWindow, |g.scores|)];
    MeanBounds(g.scores);
    MeanBounds(recent);
    Entry(g.userId, g.name, g.scores, |g.scores|, Mean(g.scores), |recent|, Mean(recent))
  }

  function Summaries(groups: seq<Group>): (es: seq<Entry>)
    requires forall i :: 0 <= i < |groups| ==> |groups[i].scores| > 0
    ensures |es| == |groups| && forall i :: 0 <= i < |groups| ==> es[i] == Summarise(groups[i])
  {
    if |groups| == 0 then [] else [Summarise(groups[0])] + Summaries(groups[1..])
  }

  function RecentKey(e: Entry): real {
    e.recentAverage
  }

  /** Where an entry's user first appears in `rows`. */
  function FirstPosKey(rows: seq<BoardRow>): Entry -> int {
    (e: Entry) => PosOf(rows, e.userId)
  }

  function TotalQuizzes(board: seq<Entry>): nat {
    if |board| == 0 then 0 else board[0].totalQuizzes + TotalQuizzes(board[1..])
  }

  /** `e` is the line for its user: named from the user's first row, with
      all the user's scores in row order, and the four figures computed from
      them. */
  predicate EntryFor(rows: seq<BoardRow>, e: Entry) {
    && FirstName(rows, e.userId) == Some(e.name)
    && e.scores == ScoresOf(rows, e.userId)
    && e.totalQuizzes == |e.scores| > 0
    && e.recentQuizzes == Min(RecentWindow, e.totalQuizzes)
    && e.averageScore == Mean(e.scores)
    && e.recentAverage == Mean(e.scores[..e.recentQuizzes])
  }

  /** Some line of `board` is the user's. */
  predicate HasLine(board: seq<Entry>, uid: Value) {
    exists i :: 0 <= i < |board| && board[i].userId == uid
  }

  /** `board` is the leaderboard of `rows`: one line per user with a row,
      ordered by recent average, highest first, users with equal recent
      averages in order of first appearance, and every row counted once. */
  predicate LeaderboardOf(rows: seq<BoardRow>, board: seq<Entry>) {
    && (forall i :: 0 <= i < |board| ==> EntryFor(rows, board[i]))
    && (forall i, j :: 0 <= i < j < |board| ==> board[i].userId != board[j].userId)
    && (forall k :: 0 <= k < |rows| ==> HasLine(board, rows[k].userId))
    && (forall i, j :: 0 <= i < j < |board| ==>
          || board[i].recentAverage > board[j].recentAverage
          || (board[i].recentAverage == board[j].recentAverage
              && PosOf(rows, board[i].userId) < PosOf(rows, board[j].userId)))
    && TotalQuizzes(board) == |rows|
  }

  lemma {:induction false} TotalQuizzesInsert(x: Entry, s: seq<Entry>)
    ensures TotalQuizzes(StableSort.Insert(x, s, RecentKey)) == x.totalQuizzes + TotalQuizzes(s)
  {
    if |s| > 0 && RecentKey(s[0]) > RecentKey(x) {
      TotalQuizzesInsert(x, s[1..]);
    }
  }

  lemma {:induction false} TotalQuizzesSort(s: seq<Entry>)
    ensures TotalQuizzes(StableSort.SortDesc(s, RecentKey)) == TotalQuizzes(s)
  {
    if |s| > 0 {
      TotalQuizzesSort(s[1..]);
      TotalQuizzesInsert(s[0], StableSort.SortDesc(s[1..], RecentKey));
    }
  }

  lemma {:induction false} TotalQuizzesSummaries(groups: seq<Group>)
    requires forall i :: 0 <= i < |groups| ==> |groups[i].scores| > 0
    ensures TotalQuizzes(Summaries(groups)) == TotalCount(groups)
  {
    if |groups| > 0 {
      TotalQuizzesSummaries(groups[1..]);
    }
  }

  /** Facts about the summaries of a correct grouping. */
  lemma SummariesOfGroups(rows: seq<BoardRow>, groups: seq<Group>)
    requires GroupsOf(rows, groups)
    ensures forall i :: 0 <= i < |groups| ==> |groups[i].scores| > 0
    ensures var entries := Summaries(groups);
            && (forall i :: 0 <= i < |entries| ==> EntryFor(rows, entries[i]))
            && StableSort.StrictlyIncreasing(entries, FirstPosKey(rows))
            && (forall k :: 0 <= k < |rows| ==> HasLine(entries, rows[k].userId))
            && TotalQuizzes(entries) == |rows|
  {
    assert forall i :: 0 <= i < |groups| ==> GroupMatchesRows(rows, groups[i]);
    var entries := Summaries(groups);
    forall i | 0 <= i < |entries| ensures EntryFor(rows, entries[i]) {
      SummaryIsEntry(rows, groups[i]);
    }
    assert FirstAppearanceOrder(rows, groups);
    forall k | 0 <= k < |rows| ensures HasLine(entries, rows[k].userId) {
      assert HasGroup(groups, rows[k].userId);
      var i :| 0 <= i < |groups| && groups[i].userId == rows[k].userId;
      assert entries[i].userId == rows[k].userId;
    }
    TotalQuizzesSummaries(groups);
  }

  lemma SummaryIsEntry(rows: seq<BoardRow>, g: Group)
    requires GroupMatchesRows(rows, g)
    ensures EntryFor(rows, Summarise(g))
  {
  }

  /** A user's line is determined by the rows: two lines for the same
      user are the same line. */
  lemma EntryForUnique(rows: seq<BoardRow>, a: Entry, b: Entry)
    requires EntryFor(rows, a) && EntryFor(rows, b)
    ensures a.userId == b.userId ==> a == b
  {
  }

  lemma RankedBoard(rows: seq<BoardRow>, board: seq<Entry>)
    requires forall i :: 0 <= i < |board| ==> EntryFor(rows, board[i])
    requires StableSort.RankedBy(board, RecentKey, FirstPosKey(rows))
    ensures forall i, j :: 0 <= i < j < |board| ==>
              || board[i].recentAverage > board[j].recentAverage
              || (board[i].recentAverage == board[j].recentAverage
                  && PosOf(rows, board[i].userId) < PosOf(rows, board[j].userId))
    ensures forall i, j :: 0 <= i < j < |board| ==> board[i].userId != board[j].userId
  {
    var pos := FirstPosKey(rows);
    forall i, j | 0 <= i < j < |board|
      ensures || board[i].recentAverage > board[j].recentAverage
              || (board[i].recentAverage == board[j].recentAverage
                  && PosOf(rows, board[i].userId) < PosOf(rows, board[j].userId))
      ensures board[i].userId != board[j].userId
    {
      assert StableSort.Ahead(board[i], board[j], RecentKey, pos);
      EntryForUnique(rows, board[i], board[j]);
    }
  }

  /** Sorting keeps every line and adds none. */
  lemma SortedKeepsLines(rows: seq<BoardRow>, entries: seq<Entry>)
    requires forall i :: 0 <= i < |entries| ==> EntryFor(rows, entries[i])
    ensures forall i :: 0 <= i < |StableSort.SortDesc(entries, RecentKey)| ==>
              EntryFor(rows, StableSort.SortDesc(entries, RecentKey)[i])
  {
    StableSort.SortDescAll(entries, RecentKey, (e: Entry) => EntryFor(rows, e));
  }

  /** Every user with a line before the sort has one after it. */
  lemma SortedKeepsUsers(rows: seq<BoardRow>, entries: seq<Entry>)
    requires forall k :: 0 <= k < |rows| ==> HasLine(entries, rows[k].userId)
    ensures forall k :: 0 <= k < |rows| ==> HasLine(StableSort.SortDesc(entries, RecentKey), rows[k].userId)
  {
    var board := StableSort.SortDesc(entries, RecentKey);
    forall k | 0 <= k < |rows| ensures HasLine(board, rows[k].userId) {
      var i :| 0 <= i < |entries| && entries[i].userId == rows[k].userId;
      StableSort.SortDescHasIndex(entries, RecentKey, i);
      var j :| 0 <= j < |board| && board[j] == entries[i];
      assert board[j].userId == rows[k].userId;
    }
  }

  /** Sorting entries that already describe `rows` yields the
      leaderboard. */
  lemma SortedEntriesAreLeaderboard(rows: seq<BoardRow>, entries: seq<Entry>)
    requires forall i :: 0 <= i < |entries| ==> EntryFor(rows, entries[i])
    requires StableSort.StrictlyIncreasing(entries, FirstPosKey(rows))
    requires forall k :: 0 <= k < |rows| ==> HasLine(entries, rows[k].userId)
    requires TotalQuizzes(entries) == |rows|
    ensures LeaderboardOf(rows, StableSort.SortDesc(entries, RecentKey))
  {
    var board := StableSort.SortDesc(entries, RecentKey);
    StableSort.SortDescRanked(entries, RecentKey, FirstPosKey(rows));
    SortedKeepsLines(rows, entries);
    SortedKeepsUsers(rows, entries);
    RankedBoard(rows, board);
    TotalQuizzesSort(entries);
  }

  /** `get_leaderboard` on the rows of its query: `None` when the join is
      empty, otherwise the leaderboard of the rows. */
  function GetLeaderboard(rows: seq<BoardRow>): (r: Option<seq<Entry>>)
    ensures r.None? <==> |rows| == 0
    ensures r.Some? ==> LeaderboardOf(rows, r.value)
  {
    if |rows| == 0 then None
    else
      var groups := GroupRows(rows);
      SummariesOfGroups(rows, groups);
      SortedEntriesAreLeaderboard(rows, Summaries(groups));
      Some(StableSort.SortDesc(Summaries(groups), RecentKey))
  }
}

=== FILE: names.dfy ===
/** `get_channel_name` and `get_user_name`: a name from the store's first
    row when Python finds it true, otherwise one fetched from the chat
    service by id prefix and appended to the store. What the store hands
    back is the name after NUMERIC affinity, so a name that looks like a
    number comes back as that number. */
module Names {
  import opened Wrappers
  import opened Affinity
  import opened Tables

  /** The chat service's lookups. Each returns the name it reports, or
      `None` when the call raises. */
  datatype Directory = Directory(
    groupName: string -> Option<string>,    // private channels, ids starting with G
    channelName: string -> Option<string>,  // ordinary channels, ids starting with C
    userName: string -> Option<string>)     // users, ids starting with U

  /** A name (or `None`) together with the store after the lookup. A name
      read from the store is a stored value; a fetched one is text. */
  datatype Lookup = Lookup(name: Option<Value>, db: Db)

  predicate StartsWith(s: string, c: char) {
    |s| > 0 && s[0] == c
  }

  /** `if name:` on the stored value: a hit only when a row was found and
      its name is true (not empty text, not zero). */
  predicate Hit(cached: Option<Value>) {
    cached.Some? && Truthy(cached.value)
  }

  function GetChannelName(db: Db, id: string, dir: Directory): (r: Result<Lookup>)
    // Only the channels table changes, and only by appending.
    ensures r.Ok? ==> && r.value.db.users == db.users && r.value.db.scores == db.scores
                      && |db.channels| <= |r.value.db.channels| <= |db.channels| + 1
                      && r.value.db.channels[..|db.channels|] == db.channels
    // A hit is returned as it is and the store is untouched.
    ensures Hit(ChannelNameById(db.channels, id)) ==> r == Ok(Lookup(ChannelNameById(db.channels, id), db))
    // On a miss, ids of any other kind give None and store nothing.
    ensures !Hit(ChannelNameById(db.channels, id)) && !StartsWith(id, 'G') && !StartsWith(id, 'C') ==>
              r == Ok(Lookup(None, db))
    // On a miss for a G or C id the service is asked, and what it reports
    // is returned and appended; if it raises, nothing is stored.
    ensures !Hit(ChannelNameById(db.channels, id)) && (StartsWith(id, 'G') || StartsWith(id, 'C')) ==>
              var fetched := if StartsWith(id, 'G') then dir.groupName(id) else dir.channelName(id);
              match fetched
              case None => r.Raised?
              case Some(n) => r == Ok(Lookup(Some(Str(n)), CreateChannel(db, id, n)))
  {
    var cached := ChannelNameById(db.channels, id);
    if Hit(cached) then Ok(Lookup(cached, db))
    else
      var fetched :=
        if StartsWith(id, 'G') then dir.groupName(id)
        else if StartsWith(id, 'C') then dir.channelName(id)
        else None;
      if !StartsWith(id, 'G') && !StartsWith(id, 'C') then Ok(Lookup(None, db))
      else match fetched
        case None => Raised("chat service lookup failed")
        case Some(n) => Ok(Lookup(Some(Str(n)), CreateChannel(db, id, n)))
  }

  function GetUserName(db: Db, id: string, dir: Directory): (r: Result<Lookup>)
    ensures r.Ok? ==> && r.value.db.channels == db.channels && r.value.db.scores == db.scores
                      && |db.users| <= |r.value.db.users| <= |db.users| + 1
                      && r.value.db.users[..|db.users|] == db.users
    ensures Hit(UserNameById(db.users, id)) ==> r == Ok(Lookup(UserNameById(db.users, id), db))
    ensures !Hit(UserNameById(db.users, id)) && !StartsWith(id, 'U') ==> r == Ok(Lookup(None, db))
    ensures !Hit(UserNameById(db.users, id)) && StartsWith(id, 'U') ==>
              match dir.userName(id)
              case None => r.Raised?
              case Some(n) => r == Ok(Lookup(Some(Str(n)), CreateUser(db, id, n)))
  {
    var cached := UserNameById(db.users, id);
    if Hit(cached) then Ok(Lookup(cached, db))
    else if !StartsWith(id, 'U') then Ok(Lookup(None, db))
    else match dir.userName(id)
      case None => Raised("chat service lookup failed")
      case Some(n) => Ok(Lookup(Some(Str(n)), CreateUser(db, id, n)))
  }

  /** The cache for a new id: the fetched name `n` is stored as
      `Stored(n)`, and the next lookup is a hit exactly when that value is
      true, in which case it returns the stored value without asking the
      service. A name that is empty or reads as zero is fetched again. */
  lemma ChannelNameCached(db: Db, id: string, n: string, dir: Directory, dir': Directory)
    requires ChannelNameById(db.channels, id).None?
    requires GetChannelName(db, id, dir) == Ok(Lookup(Some(Str(n)), CreateChannel(db, id, n)))
    ensures ChannelNameById(CreateChannel(db, id, n).channels, id) == Some(Stored(n))
    ensures Hit(ChannelNameById(CreateChannel(db, id, n).channels, id)) <==> Truthy(Stored(n))
    ensures Truthy(Stored(n)) ==>
              GetChannelName(CreateChannel(db, id, n), id, dir') == Ok(Lookup(Some(Stored(n)), CreateChannel(db, id, n)))
  {
    ChannelLookupAfterCreate(db, id, n, id);
  }

  lemma UserNameCached(db: Db, id: string, n: string, dir: Directory, dir': Directory)
    requires UserNameById(db.users, id).None?
    requires GetUserName(db, id, dir) == Ok(Lookup(Some(Str(n)), CreateUser(db, id, n)))
    ensures UserNameById(CreateUser(db, id, n).users, id) == Some(Stored(n))
    ensures Hit(UserNameById(CreateUser(db, id, n).users, id)) <==> Truthy(Stored(n))
    ensures Truthy(Stored(n)) ==>
              GetUserName(CreateUser(db, id, n), id, dir') == Ok(Lookup(Some(Stored(n)), CreateUser(db, id, n)))
  {
    UserLookupAfterCreate(db, id, n, id);
  }

  /** A stored name that Python finds false is a permanent miss: the
      first row keeps winning, so every successful lookup appends one more
      row for the same id. */
  lemma FalsyUserNameNeverCached(db: Db, id: string, dir: Directory)
    requires UserNameById(db.users, id).Some? && !Truthy(UserNameById(db.users, id).value)
    requires StartsWith(id, 'U') && dir.userName(id).Some?
    ensures GetUserName(db, id, dir).Ok?
    ensures var l := GetUserName(db, id, dir).value;
            && |l.db.users| == |db.users| + 1
            && l.db.users[|db.users|] == UserRow(Stored(id), Stored(dir.userName(id).value))
            && UserNameById(l.db.users, id) == UserNameById(db.users, id)
  {
    var n := dir.userName(id).value;
    UserLookupAfterCreate(db, id, n, id);
  }

  /** A user whose display name is `0`: the first lookup stores the
      integer 0, which is false, so the second lookup asks the service
      again and appends a second row with the same id. */
  lemma ZeroNameStoredTwice(db: Db, id: string, zero: string, dir: Directory)
    requires zero == "0" && StartsWith(id, 'U') && dir.userName(id) == Some(zero)
    requires UserNameById(db.users, id).None?
    ensures GetUserName(db, id, dir).Ok?
    ensures var db1 := GetUserName(db, id, dir).value.db;
            && GetUserName(db1, id, dir).Ok?
            && CountUserRows(GetUserName(db1, id, dir).value.db.users, Stored(id)) == 2
  {
    ZeroValue();
    StoredDigits(zero);
    var db1 := CreateUser(db, id, zero);
    assert GetUserName(db, id, dir) == Ok(Lookup(Some(Str(zero)), db1));
    UserLookupAfterCreate(db, id, zero, id);
    assert !Hit(UserNameById(db1.users, id));
    var db2 := CreateUser(db1, id, zero);
    assert GetUserName(db1, id, dir) == Ok(Lookup(Some(Str(zero)), db2));
    CountUserRowsZero(db.users, Stored(id));
    CountUserRowsAppend(db.users, UserRow(Stored(id), Stored(zero)), Stored(id));
    CountUserRowsAppend(db1.users, UserRow(Stored(id), Stored(zero)), Stored(id));
  }
}

=== FILE: poller.dfy ===
/** `StuffQuizPoller`: each pass reads the quiz listing and hands every
    listed quiz, with its publication time attached, to the callback; then
    it sleeps in short steps while the poller is alive. */
module Poller {
  import opened Wrappers
  import opened StuffQuiz

  const SleepTimes: nat := 19

  /** What one pass sees from outside: the raw listing (name and link per
      quiz, or `None` when the page fetch raised), the detail-page read of
      that pass (a quiz's time, `None` when it raises), whether the
      callback returns normally for a quiz on that pass, the value of
      `alive` at each check of the sleep loop, and its value at the next
      check of the pass loop. Every pass fetches the pages and calls the
      callback afresh, so a quiz read on one pass may fail or carry another
      time on the next. `aliveAt` and `aliveAfter` are not linked here:
      only `stop()` writes `alive`, and only to clear it, so a pass whose
      sleep saw it cleared has `aliveAfter` false too. `Run` never reads
      `aliveAt`. */
  datatype Pass = Pass(listing: Option<seq<(string, string)>>, details: string -> Option<string>,
                       notify: Quiz -> bool, aliveAt: nat -> bool, aliveAfter: bool)

  /** The hooks one pass calls: whether `on_new_stuff_quiz` is set, the
      detail-page read that yields a quiz's time (`None` when it raises),
      and whether the callback returns normally for a quiz. */
  datatype Hooks = Hooks(hasCallback: bool, details: string -> Option<string>, notify: Quiz -> bool)

  /** The hooks pass `p` calls; whether a callback is set is fixed for the
      whole run. */
  function HooksOf(p: Pass, hasCallback: bool): Hooks {
    Hooks(hasCallback, p.details, p.notify)
  }

  /** Builds one value per entry in order; the first entry whose build
      raises makes the whole call raise with that entry's exception. */
  function BuildAll<A, B>(entries: seq<A>, build: A -> Result<B>): (r: Result<seq<B>>)
    ensures r.Ok? <==> forall i :: 0 <= i < |entries| ==> build(entries[i]).Ok?
    ensures r.Ok? ==> |r.value| == |entries| && forall i :: 0 <= i < |entries| ==> build(entries[i]) == Ok(r.value[i])
    ensures r.Raised? ==> exists i :: && 0 <= i < |entries| && build(entries[i]) == Raised(r.reason)
                                   && forall i' :: 0 <= i' < i ==> build(entries[i']).Ok?
  {
    if |entries| == 0 then Ok([])
    else match build(entries[0])
      case Raised(e) => Raised(e)
      case Ok(q) =>
        var rest := BuildAll(entries[1..], build);
        assert forall i :: 1 <= i < |entries| ==> entries[i] == entries[1..][i - 1];
        match rest
        case Raised(e) =>
          var j :| && 0 <= j < |entries[1..]| && build(entries[1..][j]) == Raised(e)
                   && forall i' :: 0 <= i' < j ==> build(entries[1..][i']).Ok?;
          assert build(entries[j + 1]) == Raised(e);
          Raised(e)
        case Ok(tail) => Ok([q] + tail)
  }

  /** The quiz built from one listing entry of name and link. */
  function Build(entry: (string, string)): Result<Quiz> {
    NewQuiz(entry.0, entry.1)
  }

  /** `get_stuff_quizzes` after the page has been parsed: one quiz per
      entry, in page order, and the first link without an id makes the
      whole call raise. */
  function BuildListing(entries: seq<(string, string)>): (r: Result<seq<Quiz>>)
    ensures r.Ok? <==> forall i :: 0 <= i < |entries| ==> Build(entries[i]).Ok?
    ensures r.Ok? ==> |r.value| == |entries| && forall i :: 0 <= i < |entries| ==> Build(entries[i]) == Ok(r.value[i])
  {
    BuildAll(entries, Build)
  }

  /** The quizzes handed to the callback in one pass, and whether the pass
      ended by an exception escaping from it. */
  datatype PassOutcome = PassOutcome(notified: seq<Quiz>, raised: bool)

  /** `q` with its detail time attached, as `attach_stuff_quiz_details`
      leaves it. */
  predicate Attached(q: Quiz, q': Quiz, details: string -> Option<string>) {
    details(q.url).Some? && q' == q.(ts := details(q.url))
  }

  /** `process_stuff_quizzes`: without a callback nothing happens; with one,
      each quiz in listing order gets its time attached and is then passed
      to the callback. A failure in either escapes and ends the pass. */
  function ProcessQuizzes(quizzes: seq<Quiz>, hooks: Hooks): (o: PassOutcome)
    ensures !hooks.hasCallback ==> o == PassOutcome([], false)
    ensures |o.notified| <= |quizzes|
    ensures forall i :: 0 <= i < |o.notified| ==> Attached(quizzes[i], o.notified[i], hooks.details)
    ensures hooks.hasCallback && !o.raised ==> |o.notified| == |quizzes|
    ensures o.raised ==> hooks.hasCallback && |quizzes| > 0
  {
    if !hooks.hasCallback || |quizzes| == 0 then PassOutcome([], false)
    else
      var q := quizzes[0];
      match hooks.details(q.url)
      case None => PassOutcome([], true)
      case Some(ts) =>
        var q' := q.(ts := Some(ts));
        if !hooks.notify(q') then PassOutcome([q'], true)
        else
          var rest := ProcessQuizzes(quizzes[1..], hooks);
          PassOutcome([q'] + rest.notified, rest.raised)
  }

  /** With every hook succeeding, each listed quiz is handed over once,
      timed, in listing order. */
  lemma ProcessAllSucceed(quizzes: seq<Quiz>, hooks: Hooks)
    requires hooks.hasCallback
    requires forall i :: 0 <= i < |quizzes| ==> hooks.details(quizzes[i].url).Some?
    requires forall i :: 0 <= i < |quizzes| ==> hooks.notify(quizzes[i].(ts := hooks.details(quizzes[i].url)))
    ensures var o := ProcessQuizzes(quizzes, hooks);
            !o.raised && o.notified == Timed(quizzes, hooks.details)
  {
    if |quizzes| > 0 {
      assert forall i :: 1 <= i < |quizzes| ==> quizzes[i] == quizzes[1..][i - 1];
      ProcessAllSucceed(quizzes[1..], hooks);
    }
  }

  /** The listing with every quiz's time attached. */
  function Timed(quizzes: seq<Quiz>, details: string -> Option<string>): (r: seq<Quiz>)
    ensures |r| == |quizzes| && forall i :: 0 <= i < |r| ==> r[i] == quizzes[i].(ts := details(quizzes[i].url))
  {
    if |quizzes| == 0 then [] else [quizzes[0].(ts := details(quizzes[0].url))] + Timed(quizzes[1..], details)
  }

  /** `sleep`: at most `SleepTimes` waits, stopping at the first check that
      finds `alive` false. Returns the number of waits. */
  method Sleep(aliveAt: nat -> bool) returns (waits: nat)
    ensures waits <= SleepTimes
    ensures forall k :: 0 <= k < waits ==> aliveAt(k)
    ensures waits < SleepTimes ==> !aliveAt(waits)
  {
    waits := 0;
    while waits < SleepTimes && aliveAt(waits)
      invariant waits <= SleepTimes
      invariant forall k :: 0 <= k < waits ==> aliveAt(k)
    {
      waits := waits + 1;
    }
  }

  /** The pass's listing, or `None` when reading it raised (the exception
      `run` catches). */
  function Listing(p: Pass): (r: Option<seq<Quiz>>)
    ensures r.Some? <==> p.listing.Some? && BuildListing(p.listing.value).Ok?
  {
    match p.listing
    case None => None
    case Some(entries) =>
      match BuildListing(entries)
      case Raised(_) => None
      case Ok(quizzes) => Some(quizzes)
  }

  datatype End = Stopped | Crashed | TraceEnd

  /** Everything handed to the callback over a run, how many passes ran,
      and how the run ended. */
  datatype RunOutcome = RunOutcome(notified: seq<Quiz>, passes: nat, end: End)

  /** One pass's listing and processing: a failed listing is caught and
      hands nothing over. */
  function PassResult(p: Pass, hasCallback: bool): PassOutcome {
    match Listing(p)
    case None => PassOutcome([], false)
    case Some(quizzes) => ProcessQuizzes(quizzes, HooksOf(p, hasCallback))
  }

  /** `run` over a finite trace of passes. A failed listing skips the
      processing of that pass only; an exception from processing is not
      caught and ends the thread; otherwise the loop continues while the
      check after the sleep finds `alive` true. */
  function Run(trace: seq<Pass>, hasCallback: bool): (o: RunOutcome)
    ensures o.passes <= |trace|
    ensures |trace| > 0 ==> o.passes >= 1
    ensures o.end == TraceEnd ==> o.passes == |trace|
    ensures !hasCallback ==> o.notified == [] && o.end != Crashed
  {
    if |trace| == 0 then RunOutcome([], 0, TraceEnd)
    else
      var p := trace[0];
      var pass := PassResult(p, hasCallback);
      if pass.raised then RunOutcome(pass.notified, 1, Crashed)
      else if !p.aliveAfter then RunOutcome(pass.notified, 1, Stopped)
      else
        var rest := Run(trace[1..], hasCallback);
        RunOutcome(pass.notified + rest.notified, 1 + rest.passes, rest.end)
  }

  /** Everything the passes of `trace` hand over, pass after pass. */
  function HandedOver(trace: seq<Pass>, hasCallback: bool): seq<Quiz> {
    if |trace| == 0 then [] else PassResult(trace[0], hasCallback).notified + HandedOver(trace[1..], hasCallback)
  }

  /** An exception from processing ends the run at that pass: when passes
      `0..n-1` survive and keep the poller alive and pass `n` raises, the
      run crashes after `n + 1` passes, having handed over what those
      passes handed over, and no later pass runs. */
  lemma {:induction false} CrashEndsRun(trace: seq<Pass>, hasCallback: bool, n: nat)
    requires n < |trace|
    requires forall i :: 0 <= i < n ==> !PassResult(trace[i], hasCallback).raised && trace[i].aliveAfter
    requires PassResult(trace[n], hasCallback).raised
    ensures Run(trace, hasCallback) == RunOutcome(HandedOver(trace[..n + 1], hasCallback), n + 1, Crashed)
  {
    if n == 0 {
      assert trace[..1][1..] == [];
    } else {
      var rest := trace[1..];
      forall i | 0 <= i < n - 1 ensures !PassResult(rest[i], hasCallback).raised && rest[i].aliveAfter {
        assert rest[i] == trace[i + 1];
      }
      assert rest[n - 1] == trace[n];
      assert !PassResult(trace[0], hasCallback).raised && trace[0].aliveAfter;
      CrashEndsRun(rest, hasCallback, n - 1);
      assert trace[..n + 1][1..] == rest[..n];
    }
  }

  /** Every run, however it ends, hands over exactly what its passes hand
      over, pass after pass: the callback is called on each pass's new
      listing and nothing is remembered from one pass to the next. */
  lemma {:induction false} RunHandsOverEveryPass(trace: seq<Pass>, hasCallback: bool)
    ensures Run(trace, hasCallback).notified == HandedOver(trace[..Run(trace, hasCallback).passes], hasCallback)
  {
    if |trace| > 0 {
      var pass := PassResult(trace[0], hasCallback);
      if pass.raised || !trace[0].aliveAfter {
        assert trace[..1][1..] == [];
      } else {
        var n := Run(trace, hasCallback).passes;
        RunHandsOverEveryPass(trace[1..], hasCallback);
        assert trace[..n][1..] == trace[1..][..n - 1];
      }
    }
  }

  /** The first pass raising from processing crashes the run at once. */
  lemma ProcessingRaisesEndsRun(trace: seq<Pass>, hasCallback: bool)
    requires |trace| > 0 && Listing(trace[0]).Some? && ProcessQuizzes(Listing(trace[0]).value, HooksOf(trace[0], hasCallback)).raised
    ensures Run(trace, hasCallback).end == Crashed && Run(trace, hasCallback).passes == 1
    ensures Run(trace, hasCallback).notified == ProcessQuizzes(Listing(trace[0]).value, HooksOf(trace[0], hasCallback)).notified
  {
    CrashEndsRun(trace, hasCallback, 0);
    assert trace[..1][1..] == [];
  }

  /** A pass whose listing could not be read hands nothing over and the run
      goes on with the next pass. */
  lemma FailedListingSkipsPass(trace: seq<Pass>, hasCallback: bool)
    requires |trace| > 1 && Listing(trace[0]).None? && trace[0].aliveAfter
    ensures var o := Run(trace, hasCallback);
            var o' := Run(trace[1..], hasCallback);
            o.notified == o'.notified && o.end == o'.end && o.passes == o'.passes + 1
  {
  }

  /** Every detail read and callback of pass `p` succeeds for `qs`. */
  predicate PassSucceedsOn(p: Pass, qs: seq<Quiz>) {
    && (forall i :: 0 <= i < |qs| ==> p.details(qs[i].url).Some?)
    && (forall i :: 0 <= i < |qs| ==> p.notify(qs[i].(ts := p.details(qs[i].url))))
  }

  /** Nothing is remembered between passes: two passes over the same
      listing hand every quiz to the callback twice, each time with the
      time its own pass read. */
  lemma NoDedupAcrossPasses(p: Pass, last: Pass, hasCallback: bool)
    requires Listing(p).Some? && Listing(last).Some? && Listing(last).value == Listing(p).value
    requires hasCallback && p.aliveAfter && !last.aliveAfter
    requires PassSucceedsOn(p, Listing(p).value) && PassSucceedsOn(last, Listing(p).value)
    ensures var qs := Listing(p).value;
            Run([p, last], hasCallback) == RunOutcome(Timed(qs, p.details) + Timed(qs, last.details), 2, Stopped)
  {
    ProcessAllSucceed(Listing(p).value, HooksOf(p, hasCallback));
    ProcessAllSucceed(Listing(p).value, HooksOf(last, hasCallback));
    assert [p, last][1..] == [last];
  }

  /** A quiz handed over on one pass is fetched again on the next: when that
      fetch of its detail page raises, the second pass crashes the run,
      after the first pass handed the whole listing over. */
  lemma TransientFailureCrashesLaterPass(p: Pass, next: Pass, hasCallback: bool)
    requires Listing(p).Some? && Listing(next).Some? && Listing(next).value == Listing(p).value
    requires hasCallback && p.aliveAfter && PassSucceedsOn(p, Listing(p).value)
    requires |Listing(p).value| > 0 && next.details(Listing(p).value[0].url).None?
    ensures Run([p, next], hasCallback) == RunOutcome(Timed(Listing(p).value, p.details), 2, Crashed)
  {
    ProcessAllSucceed(Listing(p).value, HooksOf(p, hasCallback));
    assert [p, next][1..] == [next];
  }
}

=== FILE: score_parse.dfy ===
/** Reading a quiz score out of a chat message: the pattern
    `([0-9]{1,2})/15` searched leftmost-first, and the 0..15 range check. */
module ScoreParse {
  import opened Wrappers
  import opened Text

  const MaxScore: nat := 15

  /** The three characters `/15` start at position `q`. */
  predicate OutOfFifteenAt(s: string, q: int) {
    0 <= q && q + 3 <= |s| && s[q] == '/' && s[q + 1] == '1' && s[q + 2] == '5'
  }

  /** One attempt of the pattern anchored at `p`. `{1,2}` is greedy, so two
      digits are tried before one; the result is the text of group 1. */
  function MatchAt(s: string, p: nat): (g: Option<string>)
    requires p <= |s|
    ensures g.Some? ==> 1 <= |g.value| <= 2 && AllDigits(g.value)
  {
    if p + 1 < |s| && IsDigit(s[p]) && IsDigit(s[p + 1]) && OutOfFifteenAt(s, p + 2) then
      Some(s[p..p + 2])
    else if p < |s| && IsDigit(s[p]) && OutOfFifteenAt(s, p + 1) then
      Some(s[p..p + 1])
    else
      None
  }

  /** The leftmost match starting at or after `p`, as a regex search
      reports it. */
  function SearchFrom(s: string, p: nat): (g: Option<string>)
    requires p <= |s|
    ensures g.Some? ==> 1 <= |g.value| <= 2 && AllDigits(g.value)
    decreases |s| - p
  {
    match MatchAt(s, p)
    case Some(d) => Some(d)
    case None => if p == |s| then None else SearchFrom(s, p + 1)
  }

  /** The score in a message, or `None`. A missing text (`None`) makes the
      search raise, which is caught and read as no score; a captured value
      above 15 is rejected. */
  function ParseScore(text: Option<string>): (r: Option<nat>)
    ensures r.Some? ==> r.value <= MaxScore
    ensures text.None? ==> r.None?
  {
    match text
    case None => None
    case Some(s) =>
      match SearchFrom(s, 0)
      case None => None
      case Some(g) =>
        var v := DecimalValue(g);
        if v > MaxScore then None else Some(v)
  }

  // ---------------------------------------------------------------------
  // An independent description of the same rule: the first "/15" that is
  // immediately preceded by a digit decides the score.

  /** A `/15` at `q` with a digit right before it. */
  predicate Marker(s: string, q: int) {
    1 <= q && OutOfFifteenAt(s, q) && IsDigit(s[q - 1])
  }

  /** The first marker at or after `from`. */
  function FirstMarker(s: string, from: nat): (r: Option<nat>)
    ensures r.Some? ==> from <= r.value && Marker(s, r.value)
    ensures forall k :: from <= k && (r.None? || k < r.value) ==> !Marker(s, k)
    decreases |s| - from
  {
    if from >= |s| then None
    else if Marker(s, from) then Some(from)
    else FirstMarker(s, from + 1)
  }

  /** The digits the pattern captures for the marker at `q`: two when the
      character two places back is a digit too, otherwise one. */
  function DigitsBefore(s: string, q: nat): (g: string)
    requires Marker(s, q)
    ensures 1 <= |g| <= 2 && AllDigits(g)
  {
    if q >= 2 && IsDigit(s[q - 2]) then s[q - 2..q] else s[q - 1..q]
  }

  /** The regex search from `p` finds exactly the first marker after `p`,
      taking two digits only when both lie at or after `p`. */
  lemma {:induction false} SearchFromFindsFirstMarker(s: string, p: nat)
    requires p <= |s|
    ensures SearchFrom(s, p) ==
              match FirstMarker(s, p + 1)
              case None => None
              case Some(q) => Some(if q >= p + 2 && IsDigit(s[q - 2]) then s[q - 2..q] else s[q - 1..q])
    decreases |s| - p
  {
    var m := MatchAt(s, p);
    if m.Some? {
      if p + 1 < |s| && IsDigit(s[p]) && IsDigit(s[p + 1]) && OutOfFifteenAt(s, p + 2) {
        assert !Marker(s, p + 1);
        assert FirstMarker(s, p + 1) == FirstMarker(s, p + 2);
        assert Marker(s, p + 2);
      } else {
        assert Marker(s, p + 1);
      }
    } else if p < |s| {
      assert !Marker(s, p + 1);
      SearchFromFindsFirstMarker(s, p + 1);
      if p + 1 < |s| {
        assert FirstMarker(s, p + 1) == FirstMarker(s, p + 2);
      }
    }
  }

  /** A marker with none before it is the one `FirstMarker` reports. */
  lemma FirstMarkerIs(s: string, q: nat)
    requires Marker(s, q)
    requires forall k :: 0 <= k < q ==> !Marker(s, k)
    ensures FirstMarker(s, 0) == Some(q)
  {
  }

  /** The score is decided by the first digit-preceded `/15` alone: its one
      or two digits are the score, unless they exceed 15. */
  lemma ParseScoreFirstMarker(s: string)
    ensures ParseScore(Some(s)) ==
              match FirstMarker(s, 0)
              case None => None
              case Some(q) =>
                var v := DecimalValue(DigitsBefore(s, q));
                if v <= MaxScore then Some(v) else None
  {
    SearchFromFindsFirstMarker(s, 0);
    assert FirstMarker(s, 0) == FirstMarker(s, 1) by {
      assert !Marker(s, 0);
    }
    match FirstMarker(s, 0)
    case None =>
      assert SearchFrom(s, 0).None?;
    case Some(q) =>
      assert SearchFrom(s, 0) == Some(DigitsBefore(s, q));
  }

  /** When the first marker is at `q`, its digits decide the score. */
  lemma ParseScoreAtMarker(s: string, q: nat)
    requires FirstMarker(s, 0) == Some(q)
    ensures Marker(s, q)
    ensures var v := DecimalValue(DigitsBefore(s, q));
            ParseScore(Some(s)) == if v <= MaxScore then Some(v) else None
  {
    ParseScoreFirstMarker(s);
  }

  /** With no digit-preceded `/15` there is no score. */
  lemma NoMarkerNoScore(s: string)
    requires forall q :: !Marker(s, q)
    ensures ParseScore(Some(s)) == None
  {
    ParseScoreFirstMarker(s);
  }

  /** Where the pieces of `pre + g + "/15" + tail` sit. */
  lemma WrittenLayout(pre: string, g: string, tail: string)
    ensures var s := pre + g + "/15" + tail; var q := |pre| + |g|;
      && |s| == q + 3 + |tail|
      && (forall i :: 0 <= i < |pre| ==> s[i] == pre[i])
      && (forall i :: |pre| <= i < q ==> s[i] == g[i - |pre|])
      && s[q] == '/' && s[q + 1] == '1' && s[q + 2] == '5'
  {
  }

  /** In such a string the first marker is the `/15` after `g`, and the
      digits it captures are `g`. */
  lemma WrittenMarker(s: string, pre: string, g: string)
    requires NoDigits(pre) && 1 <= |g| <= 2 && AllDigits(g)
    requires |pre| + |g| + 3 <= |s|
    requires forall i :: 0 <= i < |pre| ==> s[i] == pre[i]
    requires forall i :: |pre| <= i < |pre| + |g| ==> s[i] == g[i - |pre|]
    requires OutOfFifteenAt(s, |pre| + |g|)
    ensures Marker(s, |pre| + |g|)
    ensures FirstMarker(s, 0) == Some(|pre| + |g|)
    ensures DigitsBefore(s, |pre| + |g|) == g
  {
    var q := |pre| + |g|;
    assert s[q - 1] == g[|g| - 1];
    forall k | 0 <= k < q
      ensures !Marker(s, k)
    {
      if k > |pre| {
        assert IsDigit(s[k]);
      } else if k >= 1 {
        assert !IsDigit(s[k - 1]);
      }
    }
    FirstMarkerIs(s, q);
    if |g| == 2 {
      assert s[q - 2..q] == g;
    } else {
      assert s[q - 1..q] == g;
      assert q >= 2 ==> !IsDigit(s[q - 2]);
    }
  }

  /** A score `g` (one or two digits, leading zero allowed) written as
      `g/15` after text without digits is read back, whatever follows. */
  lemma WrittenScoreIsRead(pre: string, g: string, tail: string)
    requires NoDigits(pre)
    requires 1 <= |g| <= 2 && AllDigits(g) && DecimalValue(g) <= MaxScore
    ensures ParseScore(Some(pre + g + "/15" + tail)) == Some(DecimalValue(g))
  {
    var s := pre + g + "/15" + tail;
    var q := |pre| + |g|;
    WrittenLayout(pre, g, tail);
    WrittenMarker(s, pre, g);
    ParseScoreAtMarker(s, q);
  }

  /** Every score in range, written in decimal as `d/15`, is read back. */
  lemma ScoreRoundTrip(d: nat, tail: string)
    requires d <= MaxScore
    ensures ParseScore(Some(NatToString(d) + "/15" + tail)) == Some(d)
  {
    NatToStringRoundTrip(d);
    WrittenScoreIsRead("", NatToString(d), tail);
    assert "" + NatToString(d) == NatToString(d);
  }

  /** Only the first candidate counts: a `20/15` early in the message
      hides a later valid `7/15`. */
  lemma FirstCandidateOnly()
    ensures ParseScore(Some("20/15 then 7/15")) == None
  {
    var s := "20/15 then 7/15";
    assert Marker(s, 2);
    FirstMarkerIs(s, 2);
    ParseScoreFirstMarker(s);
    assert DigitsBefore(s, 2) == "20";
  }

  /** Three digits before `/15`: the pattern captures the last two. */
  lemma ThreeDigitsUseLastTwo()
    ensures ParseScore(Some("115/15")) == Some(15)
  {
    var s := "115/15";
    assert Marker(s, 3);
    FirstMarkerIs(s, 3);
    ParseScoreFirstMarker(s);
    assert DigitsBefore(s, 3) == "15";
  }
}

=== FILE: stable_sort.dfy ===
/** Python's `sorted(xs, key=k, reverse=True)`: a stable sort into
    non-increasing key order, as an insertion sort on sequences. */
module StableSort {

  /** `x` goes in front of the first element whose key is not larger, so it
      stays ahead of every element with an equal key. */
  function Insert<T(!new)>(x: T, s: seq<T>, key: T -> real): (r: seq<T>)
    ensures multiset(r) == multiset(s) + multiset{x}
    ensures forall y :: y in r <==> y == x || y in s
  {
    if |s| == 0 || key(s[0]) <= key(x) then [x] + s
    else
      assert s == [s[0]] + s[1..];
      [s[0]] + Insert(x, s[1..], key)
  }

  function SortDesc<T(!new)>(s: seq<T>, key: T -> real): (r: seq<T>)
    ensures multiset(r) == multiset(s)
    ensures forall y :: y in r <==> y in s
  {
    if |s| == 0 then []
    else
      assert s == [s[0]] + s[1..];
      Insert(s[0], SortDesc(s[1..], key), key)
  }

  /** A property every element has survives the sort. */
  lemma SortDescAll<T(!new)>(s: seq<T>, key: T -> real, p: T -> bool)
    requires forall i :: 0 <= i < |s| ==> p(s[i])
    ensures forall i :: 0 <= i < |SortDesc(s, key)| ==> p(SortDesc(s, key)[i])
  {
    var r := SortDesc(s, key);
    forall i | 0 <= i < |r| ensures p(r[i]) {
      assert r[i] in s;
    }
  }

  /** Every element still has a place after the sort. */
  lemma SortDescHasIndex<T(!new)>(s: seq<T>, key: T -> real, i: nat)
    requires i < |s|
    ensures exists j :: 0 <= j < |SortDesc(s, key)| && SortDesc(s, key)[j] == s[i]
  {
    assert s[i] in SortDesc(s, key);
  }

  predicate NonIncreasing<T(!new)>(s: seq<T>, key: T -> real) {
    forall i, j :: 0 <= i < j < |s| ==> key(s[i]) >= key(s[j])
  }

  /** `a` ranks ahead of `b`: a larger key, or an equal key and a smaller
      `pos`. */
  predicate Ahead<T(!new)>(a: T, b: T, key: T -> real, pos: T -> int) {
    key(a) > key(b) || (key(a) == key(b) && pos(a) < pos(b))
  }

  /** Ordered by key, descending, and among equal keys by `pos`,
      ascending. */
  predicate RankedBy<T(!new)>(s: seq<T>, key: T -> real, pos: T -> int) {
    forall i, j :: 0 <= i < j < |s| ==> Ahead(s[i], s[j], key, pos)
  }

  predicate StrictlyIncreasing<T(!new)>(s: seq<T>, pos: T -> int) {
    forall i, j :: 0 <= i < j < |s| ==> pos(s[i]) < pos(s[j])
  }

  lemma RankedCons<T(!new)>(a: T, t: seq<T>, key: T -> real, pos: T -> int)
    ensures RankedBy([a] + t, key, pos) <==> RankedBy(t, key, pos) && forall y :: y in t ==> Ahead(a, y, key, pos)
  {
    var s := [a] + t;
    assert forall k :: 0 <= k < |t| ==> s[k + 1] == t[k];
    if RankedBy(t, key, pos) && forall y :: y in t ==> Ahead(a, y, key, pos) {
      forall i, j | 0 <= i < j < |s| ensures Ahead(s[i], s[j], key, pos) {
        assert s[j] == t[j - 1];
        if i > 0 { assert s[i] == t[i - 1]; }
      }
    }
    if RankedBy(s, key, pos) {
      forall y | y in t ensures Ahead(a, y, key, pos) {
        var k :| 0 <= k < |t| && t[k] == y;
        assert s[0] == a && s[k + 1] == y;
      }
      forall i, j | 0 <= i < j < |t| ensures Ahead(t[i], t[j], key, pos) {
        assert s[i + 1] == t[i] && s[j + 1] == t[j];
      }
    }
  }

  lemma {:induction false} InsertRanked<T(!new)>(x: T, s: seq<T>, key: T -> real, pos: T -> int)
    requires RankedBy(s, key, pos)
    requires forall y :: y in s ==> pos(x) < pos(y)
    ensures RankedBy(Insert(x, s, key), key, pos)
  {
    if |s| == 0 {
    } else if key(s[0]) <= key(x) {
      RankedCons(s[0], s[1..], key, pos);
      assert s == [s[0]] + s[1..];
      forall y | y in s ensures Ahead(x, y, key, pos) {
        assert y == s[0] || y in s[1..];
      }
      RankedCons(x, s, key, pos);
    } else {
      var t := Insert(x, s[1..], key);
      assert s == [s[0]] + s[1..];
      RankedCons(s[0], s[1..], key, pos);
      InsertRanked(x, s[1..], key, pos);
      RankedCons(s[0], t, key, pos);
    }
  }

  /** A stable sort: given the input ordered by `pos`, the output is ordered
      by key descending and, among equal keys, still by `pos`. */
  lemma {:induction false} SortDescRanked<T(!new)>(s: seq<T>, key: T -> real, pos: T -> int)
    requires StrictlyIncreasing(s, pos)
    ensures RankedBy(SortDesc(s, key), key, pos)
  {
    if |s| > 0 {
      var rest := SortDesc(s[1..], key);
      SortDescRanked(s[1..], key, pos);
      forall y | y in rest ensures pos(s[0]) < pos(y) {
        var k :| 0 <= k < |s[1..]| && s[1..][k] == y;
        assert s[k + 1] == y;
      }
      InsertRanked(s[0], rest, key, pos);
    }
  }

  lemma NonIncreasingCons<T(!new)>(a: T, t: seq<T>, key: T -> real)
    ensures NonIncreasing([a] + t, key) <==> NonIncreasing(t, key) && forall y :: y in t ==> key(a) >= key(y)
  {
    var s := [a] + t;
    assert forall k :: 0 <= k < |t| ==> s[k + 1] == t[k];
    if NonIncreasing(t, key) && forall y :: y in t ==> key(a) >= key(y) {
      forall i, j | 0 <= i < j < |s| ensures key(s[i]) >= key(s[j]) {
        assert s[j] == t[j - 1];
        if i > 0 { assert s[i] == t[i - 1]; }
      }
    }
    if NonIncreasing(s, key) {
      forall y | y in t ensures key(a) >= key(y) {
        var k :| 0 <= k < |t| && t[k] == y;
        assert s[0] == a && s[k + 1] == y;
      }
      forall i, j | 0 <= i < j < |t| ensures key(t[i]) >= key(t[j]) {
        assert s[i + 1] == t[i] && s[j + 1] == t[j];
      }
    }
  }

  lemma {:induction false} InsertNonIncreasing<T(!new)>(x: T, s: seq<T>, key: T -> real)
    requires NonIncreasing(s, key)
    ensures NonIncreasing(Insert(x, s, key), key)
  {
    if |s| == 0 {
    } else if key(s[0]) <= key(x) {
      NonIncreasingCons(s[0], s[1..], key);
      assert s == [s[0]] + s[1..];
      forall y | y in s ensures key(x) >= key(y) {
        assert y == s[0] || y in s[1..];
      }
      NonIncreasingCons(x, s, key);
    } else {
      var t := Insert(x, s[1..], key);
      assert s == [s[0]] + s[1..];
      NonIncreasingCons(s[0], s[1..], key);
      InsertNonIncreasing(x, s[1..], key);
      NonIncreasingCons(s[0], t, key);
    }
  }

  /** The output is in non-increasing key order, whatever the input. */
  lemma {:induction false} SortDescNonIncreasing<T(!new)>(s: seq<T>, key: T -> real)
    ensures NonIncreasing(SortDesc(s, key), key)
  {
    if |s| > 0 {
      SortDescNonIncreasing(s[1..], key);
      InsertNonIncreasing(s[0], SortDesc(s[1..], key), key);
    }
  }
}

=== FILE: stuff_quiz.dfy ===
/** A quiz from the listing page: its id read from the link with the
    pattern `/[A-Za-z0-9._-]+/([0-9]+)/`, its trimmed name and its url. */
module StuffQuiz {
  import opened Wrappers
  import opened Text

  const StuffBaseUrl := "https://www.stuff.co.nz"

  /** The quiz record; `ts` is `None` until the detail page has been read. */
  datatype Quiz = Quiz(id: string, name: string, href: string, url: string, ts: Option<string>)

  /** The character class `[A-Za-z0-9._-]`; it does not contain `/`. */
  predicate IsSegmentChar(c: char) {
    ('A' <= c <= 'Z') || ('a' <= c <= 'z') || IsDigit(c) || c == '.' || c == '_' || c == '-'
  }

  /** The pattern matches with its three slashes at `i`, `j` and `k`: a
      non-empty segment between the first two and a non-empty run of digits
      (the captured id) between the last two. */
  predicate PatternAt(s: string, i: int, j: int, k: int) {
    && 0 <= i && i + 1 < j && j + 1 < k < |s|
    && s[i] == '/' && s[j] == '/' && s[k] == '/'
    && (forall t :: i < t < j ==> IsSegmentChar(s[t]))
    && (forall t :: j < t < k ==> IsDigit(s[t]))
  }

  /** How far a greedy run of `ok` characters from `from` reaches. */
  function SpanEnd(s: string, from: nat, ok: char -> bool): (e: nat)
    requires from <= |s|
    ensures from <= e <= |s|
    ensures forall t :: from <= t < e ==> ok(s[t])
    ensures e < |s| ==> !ok(s[e])
    decreases |s| - from
  {
    if from < |s| && ok(s[from]) then SpanEnd(s, from + 1, ok) else from
  }

  /** One attempt of the pattern anchored at `i`, consuming greedily. Since
      neither class contains `/`, backing off a greedy run can never put a
      `/` next, so the greedy attempt is the only one that can succeed. */
  function MatchAt(s: string, i: nat): Option<(nat, nat)>
    requires i <= |s|
  {
    if i < |s| && s[i] == '/' then
      var j := SpanEnd(s, i + 1, IsSegmentChar);
      if i + 1 < j < |s| && s[j] == '/' then
        var k := SpanEnd(s, j + 1, IsDigit);
        if j + 1 < k < |s| && s[k] == '/' then Some((j, k)) else None
      else None
    else None
  }

  /** The greedy attempt succeeds exactly when the pattern matches there,
      and it finds the only possible match. */
  lemma MatchAtIff(s: string, i: nat, j: int, k: int)
    requires i <= |s|
    ensures MatchAt(s, i) == Some((j, k)) <==> PatternAt(s, i, j, k)
  {
    if PatternAt(s, i, j, k) {
      var j' := SpanEnd(s, i + 1, IsSegmentChar);
      assert !IsSegmentChar(s[j]);
      assert j' == j;
      var k' := SpanEnd(s, j + 1, IsDigit);
      assert !IsDigit(s[k]);
      assert k' == k;
    }
  }

  /** The leftmost match at or after `i`. */
  function SearchFrom(s: string, i: nat): (r: Option<(nat, nat, nat)>)
    requires i <= |s|
    ensures r.Some? ==> i <= r.value.0 && PatternAt(s, r.value.0, r.value.1, r.value.2)
    ensures forall i', j, k :: i <= i' && (r.None? || i' < r.value.0) ==> !PatternAt(s, i', j, k)
    decreases |s| - i
  {
    match MatchAt(s, i)
    case Some((j, k)) =>
      MatchAtIff(s, i, j, k);
      Some((i, j, k))
    case None =>
      NoMatchAt(s, i);
      if i == |s| then None else SearchFrom(s, i + 1)
  }

  lemma NoMatchAt(s: string, i: nat)
    requires i <= |s| && MatchAt(s, i).None?
    ensures forall j, k :: !PatternAt(s, i, j, k)
  {
    forall j, k ensures !PatternAt(s, i, j, k) {
      MatchAtIff(s, i, j, k);
    }
  }

  /** `re.search(QUIZ_ID_PATTERN, href).group(1)`; a link without a match
      makes `.group` raise. */
  function QuizId(href: string): (r: Result<string>)
    ensures r.Ok? ==> |r.value| > 0 && AllDigits(r.value)
  {
    match SearchFrom(href, 0)
    case None => Raised("no quiz id in link")
    case Some((i, j, k)) => Ok(href[j + 1..k])
  }

  /** The id is the digit group of the leftmost match, so a substring of
      the link; construction fails exactly when nothing matches. */
  lemma QuizIdIsLeftmostMatch(href: string)
    ensures QuizId(href).Ok? ==>
              exists i, j, k :: && PatternAt(href, i, j, k) && QuizId(href).value == href[j + 1..k]
                                && forall i', j', k' :: 0 <= i' < i ==> !PatternAt(href, i', j', k')
    ensures QuizId(href).Raised? <==> forall i, j, k :: !PatternAt(href, i, j, k)
  {
  }

  /** `StuffQuiz(name, href)`. */
  function NewQuiz(name: string, href: string): (r: Result<Quiz>)
    ensures r.Raised? <==> QuizId(href).Raised?
    ensures r.Ok? ==> && r.value.id == QuizId(href).value
                      && r.value.name == Strip(name)
                      && r.value.href == href
                      && |r.value.url| == |StuffBaseUrl| + |href|
                      && r.value.url[..|StuffBaseUrl|] == StuffBaseUrl
                      && r.value.url[|StuffBaseUrl|..] == href
                      && r.value.ts.None?
  {
    match QuizId(href)
    case Raised(e) => Raised(e)
    case Ok(id) => Ok(Quiz(id, Strip(name), href, StuffBaseUrl + href, None))
  }
}

=== FILE: tables.dfy ===
/** The three SQLite tables as row sequences in insertion order, with the
    first-row lookups, the append-only inserts and the leaderboard join.
    Every column but `score` is declared `string`, so a row holds what
    NUMERIC affinity made of the text inserted (`Affinity.Stored`), and a
    lookup key is converted the same way before it is compared. */
module Tables {
  import opened Wrappers
  import opened Affinity

  datatype ChannelRow = ChannelRow(id: Value, name: Value)
  datatype UserRow = UserRow(id: Value, name: Value)
  datatype ScoreRow = ScoreRow(userId: Value, channelId: Value, score: int, ts: Value)

  /** The whole store. No table has a key, so nothing stops two rows with
      the same id. */
  datatype Db = Db(channels: seq<ChannelRow>, users: seq<UserRow>, scores: seq<ScoreRow>)

  const Empty := Db([], [], [])

  /** The index of the first element satisfying `p`: `rows[0]` of a query
      result, in insertion order. */
  function FirstIndex<T>(s: seq<T>, p: T -> bool): (r: Option<nat>)
    ensures r.Some? ==> r.value < |s| && p(s[r.value])
    ensures r.Some? ==> forall j :: 0 <= j < r.value ==> !p(s[j])
    ensures r.None? ==> forall j :: 0 <= j < |s| ==> !p(s[j])
  {
    if |s| == 0 then None
    else if p(s[0]) then Some(0)
    else match FirstIndex(s[1..], p)
      case None => None
      case Some(k) => Some(k + 1)
  }

  /** `SELECT name FROM channels WHERE id=?`, first row or `None`. */
  function ChannelNameById(rows: seq<ChannelRow>, id: string): (r: Option<Value>)
    ensures r.None? <==> forall i :: 0 <= i < |rows| ==> rows[i].id != Stored(id)
    ensures r.Some? ==> exists i :: 0 <= i < |rows| && rows[i].id == Stored(id) && rows[i].name == r.value
                                    && forall j :: 0 <= j < i ==> rows[j].id != Stored(id)
  {
    var key := Stored(id);
    match FirstIndex(rows, (c: ChannelRow) => c.id == key)
    case None => None
    case Some(i) => Some(rows[i].name)
  }

  /** `SELECT name FROM users WHERE id=?`, first row or `None`. */
  function UserNameById(rows: seq<UserRow>, id: string): (r: Option<Value>)
    ensures r.None? <==> forall i :: 0 <= i < |rows| ==> rows[i].id != Stored(id)
    ensures r.Some? ==> exists i :: 0 <= i < |rows| && rows[i].id == Stored(id) && rows[i].name == r.value
                                    && forall j :: 0 <= j < i ==> rows[j].id != Stored(id)
  {
    var key := Stored(id);
    match FirstIndex(rows, (u: UserRow) => u.id == key)
    case None => None
    case Some(i) => Some(rows[i].name)
  }

  /** `SELECT id FROM users WHERE name=?`, first row or `None`. */
  function UserIdByName(rows: seq<UserRow>, name: string): (r: Option<Value>)
    ensures r.None? <==> forall i :: 0 <= i < |rows| ==> rows[i].name != Stored(name)
    ensures r.Some? ==> exists i :: 0 <= i < |rows| && rows[i].name == Stored(name) && rows[i].id == r.value
                                    && forall j :: 0 <= j < i ==> rows[j].name != Stored(name)
  {
    var key := Stored(name);
    match FirstIndex(rows, (u: UserRow) => u.name == key)
    case None => None
    case Some(i) => Some(rows[i].id)
  }

  /** `INSERT INTO channels`: always a new last row, even for a known id. */
  function CreateChannel(db: Db, id: string, name: string): (r: Db)
    ensures |r.channels| == |db.channels| + 1
    ensures r.channels[..|db.channels|] == db.channels && r.channels[|db.channels|] == ChannelRow(Stored(id), Stored(name))
    ensures r.users == db.users && r.scores == db.scores
  {
    db.(channels := db.channels + [ChannelRow(Stored(id), Stored(name))])
  }

  /** `INSERT INTO users`: always a new last row, even for a known id. */
  function CreateUser(db: Db, id: string, name: string): (r: Db)
    ensures |r.users| == |db.users| + 1
    ensures r.users[..|db.users|] == db.users && r.users[|db.users|] == UserRow(Stored(id), Stored(name))
    ensures r.channels == db.channels && r.scores == db.scores
  {
    db.(users := db.users + [UserRow(Stored(id), Stored(name))])
  }

  /** `INSERT INTO scores`: always a new last row, even an identical one. */
  function AddScore(db: Db, userId: string, channelId: string, score: int, ts: string): (r: Db)
    ensures |r.scores| == |db.scores| + 1
    ensures r.scores[..|db.scores|] == db.scores
    ensures r.scores[|db.scores|] == ScoreRow(Stored(userId), Stored(channelId), score, Stored(ts))
    ensures r.channels == db.channels && r.users == db.users
  {
    db.(scores := db.scores + [ScoreRow(Stored(userId), Stored(channelId), score, Stored(ts))])
  }

  /** An insert never changes what a lookup already finds: the first row
      wins, so a second name for a known id is stored but never read. A key
      with no row before finds the new name, as stored, when it is stored
      as the same value as the new id. */
  lemma ChannelLookupAfterCreate(db: Db, id: string, name: string, key: string)
    ensures ChannelNameById(CreateChannel(db, id, name).channels, key) ==
              if ChannelNameById(db.channels, key).None? && Stored(key) == Stored(id) then Some(Stored(name))
              else ChannelNameById(db.channels, key)
  {
    var k := Stored(key);
    var row := ChannelRow(Stored(id), Stored(name));
    FirstIndexAppend(db.channels, row, (c: ChannelRow) => c.id == k);
    assert CreateChannel(db, id, name).channels == db.channels + [row];
  }

  /** The same first-row-wins rule for users looked up by id. */
  lemma UserLookupAfterCreate(db: Db, id: string, name: string, key: string)
    ensures UserNameById(CreateUser(db, id, name).users, key) ==
              if UserNameById(db.users, key).None? && Stored(key) == Stored(id) then Some(Stored(name))
              else UserNameById(db.users, key)
  {
    var k := Stored(key);
    var row := UserRow(Stored(id), Stored(name));
    FirstIndexAppend(db.users, row, (u: UserRow) => u.id == k);
    assert CreateUser(db, id, name).users == db.users + [row];
  }

  /** Appending a row changes the first match only when there was none. */
  lemma {:induction false} FirstIndexAppend<T>(s: seq<T>, x: T, p: T -> bool)
    ensures FirstIndex(s + [x], p) ==
              if FirstIndex(s, p).Some? then FirstIndex(s, p) else if p(x) then Some(|s|) else None
  {
    if |s| > 0 {
      assert (s + [x])[1..] == s[1..] + [x];
      FirstIndexAppend(s[1..], x, p);
    }
  }

  // ---------------------------------------------------------------------
  // The leaderboard query: scores JOIN users ON scores.user_id = users.id.

  /** One joined row: `scores.user_id, users.name, scores.score, scores.ts`. */
  datatype BoardRow = BoardRow(userId: Value, name: Value, score: int, ts: Value)

  /** Some users row with id `id` carries `name`. */
  predicate NameOnRow(users: seq<UserRow>, id: Value, name: Value) {
    exists i :: 0 <= i < |users| && users[i].id == id && users[i].name == name
  }

  /** The names on the users rows with id `id`, in table order. */
  function NamesWithId(users: seq<UserRow>, id: Value): seq<Value> {
    if |users| == 0 then [] else (if users[0].id == id then [users[0].name] else []) + NamesWithId(users[1..], id)
  }

  /** The name column of joined rows. */
  function NamesOf(rows: seq<BoardRow>): (r: seq<Value>)
    ensures |r| == |rows| && forall k :: 0 <= k < |r| ==> r[k] == rows[k].name
  {
    if |rows| == 0 then [] else [rows[0].name] + NamesOf(rows[1..])
  }

  /** The joined rows one score contributes: one per users row with its id,
      in table order, each carrying that row's name. */
  function MatchesFor(s: ScoreRow, users: seq<UserRow>): (r: seq<BoardRow>)
    ensures |r| == CountUserRows(users, s.userId)
    ensures forall k :: 0 <= k < |r| ==> r[k].userId == s.userId && r[k].score == s.score && r[k].ts == s.ts
    ensures NamesOf(r) == NamesWithId(users, s.userId)
    ensures forall k :: 0 <= k < |r| ==> NameOnRow(users, s.userId, r[k].name)
  {
    if |users| == 0 then []
    else
      var rest := MatchesFor(s, users[1..]);
      var head := if users[0].id == s.userId then [BoardRow(s.userId, users[0].name, s.score, s.ts)] else [];
      var r := head + rest;
      NamesOfAppend(head, rest);
      forall k | 0 <= k < |r| ensures NameOnRow(users, s.userId, r[k].name) {
        assert NamesOf(r)[k] == r[k].name;
        NameOnRowOfNames(users, s.userId, k);
      }
      r
  }

  lemma NamesOfAppend(a: seq<BoardRow>, b: seq<BoardRow>)
    ensures NamesOf(a + b) == NamesOf(a) + NamesOf(b)
  {
    assert forall k :: 0 <= k < |a| + |b| ==> (a + b)[k] == if k < |a| then a[k] else b[k - |a|];
  }

  /** Every name in `NamesWithId` sits on a users row with that id. */
  lemma {:induction false} NameOnRowOfNames(users: seq<UserRow>, id: Value, k: nat)
    requires k < |NamesWithId(users, id)|
    ensures NameOnRow(users, id, NamesWithId(users, id)[k])
  {
    var head := if users[0].id == id then [users[0].name] else [];
    assert NamesWithId(users, id) == head + NamesWithId(users[1..], id);
    if k >= |head| {
      NameOnRowOfNames(users[1..], id, k - |head|);
      var i :| 0 <= i < |users[1..]| && users[1..][i].id == id && users[1..][i].name == NamesWithId(users[1..], id)[k - |head|];
      assert users[i + 1] == users[1..][i];
    }
  }

  /** How many users rows carry id `id`. */
  function CountUserRows(users: seq<UserRow>, id: Value): nat {
    if |users| == 0 then 0 else (if users[0].id == id then 1 else 0) + CountUserRows(users[1..], id)
  }

  lemma {:induction false} CountUserRowsZero(users: seq<UserRow>, id: Value)
    ensures CountUserRows(users, id) == 0 <==> forall i :: 0 <= i < |users| ==> users[i].id != id
  {
    if |users| > 0 {
      CountUserRowsZero(users[1..], id);
      assert forall i :: 1 <= i < |users| ==> users[i] == users[1..][i - 1];
    }
  }

  lemma {:induction false} CountUserRowsAppend(users: seq<UserRow>, row: UserRow, id: Value)
    ensures CountUserRows(users + [row], id) == CountUserRows(users, id) + (if row.id == id then 1 else 0)
  {
    if |users| > 0 {
      assert (users + [row])[1..] == users[1..] + [row];
      CountUserRowsAppend(users[1..], row, id);
    }
  }

  /** The inner join, score by score (the query's ORDER BY is applied by
      whoever reads it). */
  function JoinScoresUsers(scores: seq<ScoreRow>, users: seq<UserRow>): seq<BoardRow> {
    if |scores| == 0 then [] else MatchesFor(scores[0], users) + JoinScoresUsers(scores[1..], users)
  }

  /** Some users row carries `id`. */
  predicate HasUserRow(users: seq<UserRow>, id: Value) {
    exists i :: 0 <= i < |users| && users[i].id == id
  }

  /** Each score appears in the join once per users row with its id. */
  function JoinSize(scores: seq<ScoreRow>, users: seq<UserRow>): nat {
    if |scores| == 0 then 0 else CountUserRows(users, scores[0].userId) + JoinSize(scores[1..], users)
  }

  lemma {:induction false} JoinScoresUsersSize(scores: seq<ScoreRow>, users: seq<UserRow>)
    ensures |JoinScoresUsers(scores, users)| == JoinSize(scores, users)
  {
    if |scores| > 0 {
      JoinScoresUsersSize(scores[1..], users);
    }
  }

  /** The join is empty exactly when no score has a users row: scores of
      unknown users drop out of the leaderboard. */
  lemma {:induction false} JoinEmptyIff(scores: seq<ScoreRow>, users: seq<UserRow>)
    ensures |JoinScoresUsers(scores, users)| == 0 <==>
              forall k :: 0 <= k < |scores| ==> !HasUserRow(users, scores[k].userId)
  {
    if |scores| > 0 {
      JoinEmptyIff(scores[1..], users);
      CountUserRowsZero(users, scores[0].userId);
      assert forall k :: 1 <= k < |scores| ==> scores[k] == scores[1..][k - 1];
    }
  }

  /** A store where one score row meets two users rows with its id, as
      two lookups of a user whose display name is `0` leave it. */
  const TwoUserRowsOneScore :=
    Db([], [UserRow(Str("U1"), Int(0)), UserRow(Str("U1"), Int(0))], [ScoreRow(Str("U1"), Str("C1"), 10, Int(1))])

  /** Duplicate users rows multiply scores: one stored score yields two
      joined rows. */
  lemma DuplicateUserRowsDoubleCount()
    ensures |TwoUserRowsOneScore.scores| == 1
    ensures |JoinScoresUsers(TwoUserRowsOneScore.scores, TwoUserRowsOneScore.users)| == 2
  {
    JoinScoresUsersSize(TwoUserRowsOneScore.scores, TwoUserRowsOneScore.users);
  }

  /** Two users rows for one id under different names: the score joins once
      with each, so both names reach the leaderboard's rows, in table
      order. */
  lemma EveryNameJoinsOnce(id: Value, first: Value, second: Value, s: ScoreRow)
    requires s.userId == id
    ensures NamesOf(MatchesFor(s, [UserRow(id, first), UserRow(id, second)])) == [first, second]
  {
    var users := [UserRow(id, first), UserRow(id, second)];
    assert users[1..][1..] == [];
    assert NamesWithId(users, id) == [first] + NamesWithId(users[1..], id);
  }
}

=== FILE: text.dfy ===
/** Character classes and string helpers with Python's meaning. */
module Text {

  predicate IsDigit(c: char) {
    '0' <= c <= '9'
  }

  function DigitValue(c: char): (d: nat)
    requires IsDigit(c)
    ensures d < 10
  {
    (c as int) - ('0' as int)
  }

  function DigitChar(d: nat): (c: char)
    requires d < 10
    ensures IsDigit(c) && DigitValue(c) == d
  {
    (('0' as int) + d) as char
  }

  predicate AllDigits(s: string) {
    forall i :: 0 <= i < |s| ==> IsDigit(s[i])
  }

  predicate NoDigits(s: string) {
    forall i :: 0 <= i < |s| ==> !IsDigit(s[i])
  }

  /** The value of a decimal digit string, as Python's `int()` reads it
      (leading zeros allowed, the empty string reads as 0 here). */
  function DecimalValue(s: string): nat
    requires AllDigits(s)
  {
    if |s| == 0 then 0 else 10 * DecimalValue(s[..|s| - 1]) + DigitValue(s[|s| - 1])
  }

  /** Python's `str(n)` for a non-negative integer. */
  function NatToString(n: nat): (s: string)
    ensures |s| >= 1 && AllDigits(s)
    ensures |s| > 1 ==> s[0] != '0'
    ensures n < 10 <==> |s| == 1
  {
    if n < 10 then [DigitChar(n)] else NatToString(n / 10) + [DigitChar(n % 10)]
  }

  lemma {:induction false} NatToStringRoundTrip(n: nat)
    ensures DecimalValue(NatToString(n)) == n
  {
    if n >= 10 {
      var s := NatToString(n);
      assert s[..|s| - 1] == NatToString(n / 10);
      NatToStringRoundTrip(n / 10);
    }
  }

  /** The characters Python's `str.isspace()` accepts, which are the ones
      `str.strip()` with no argument removes. */
  predicate IsSpace(c: char) {
    var n := c as int;
    || n == 0x20 || (0x09 <= n <= 0x0D) || (0x1C <= n <= 0x1F)
    || n == 0x85 || n == 0xA0 || n == 0x1680 || (0x2000 <= n <= 0x200A)
    || n == 0x2028 || n == 0x2029 || n == 0x202F || n == 0x205F || n == 0x3000
  }

  /** `s.lstrip(c)`: every leading `c` is removed. */
  function LStripChar(s: string, c: char): (r: string)
    ensures |r| <= |s| && r == s[|s| - |r|..]
    ensures forall i :: 0 <= i < |s| - |r| ==> s[i] == c
    ensures |r| > 0 ==> r[0] != c
  {
    if |s| > 0 && s[0] == c then LStripChar(s[1..], c) else s
  }

  /** `k` copies of `c`. */
  function Repeat(c: char, k: nat): (r: string)
    ensures |r| == k && forall i :: 0 <= i < k ==> r[i] == c
  {
    seq(k, _ => c)
  }

  lemma {:induction false} LStripCharRepeat(c: char, k: nat, rest: string)
    requires |rest| == 0 || rest[0] != c
    ensures LStripChar(Repeat(c, k) + rest, c) == rest
  {
    if k > 0 {
      assert (Repeat(c, k) + rest)[1..] == Repeat(c, k - 1) + rest;
      LStripCharRepeat(c, k - 1, rest);
    }
  }

  /** `lstrip` splits its input into a run of `c` and the result. */
  lemma LStripCharSplit(s: string, c: char)
    ensures s == Repeat(c, |s| - |LStripChar(s, c)|) + LStripChar(s, c)
  {
    var r := LStripChar(s, c);
    assert s == s[..|s| - |r|] + r;
    assert s[..|s| - |r|] == Repeat(c, |s| - |r|);
  }

  lemma LStripCharIdempotent(s: string, c: char)
    ensures LStripChar(LStripChar(s, c), c) == LStripChar(s, c)
  {
    LStripCharRepeat(c, 0, LStripChar(s, c));
    assert Repeat(c, 0) + LStripChar(s, c) == LStripChar(s, c);
  }

  /** Number of whitespace characters at the front of `s`. */
  function LeadingSpace(s: string): (n: nat)
    ensures n <= |s|
    ensures forall i :: 0 <= i < n ==> IsSpace(s[i])
    ensures n < |s| ==> !IsSpace(s[n])
  {
    if |s| > 0 && IsSpace(s[0]) then 1 + LeadingSpace(s[1..]) else 0
  }

  /** Number of whitespace characters at the end of `s`. */
  function TrailingSpace(s: string): (n: nat)
    ensures n <= |s|
    ensures forall i :: |s| - n <= i < |s| ==> IsSpace(s[i])
    ensures n < |s| ==> !IsSpace(s[|s| - n - 1])
  {
    if |s| > 0 && IsSpace(s[|s| - 1]) then 1 + TrailingSpace(s[..|s| - 1]) else 0
  }

  /** `r` is what remains of `s` once the `a` whitespace characters in
      front and all whitespace characters after `r` are cut away. */
  predicate StrippedAt(s: string, r: string, a: nat) {
    && a + |r| <= |s| && r == s[a..a + |r|]
    && (forall i :: 0 <= i < a ==> IsSpace(s[i]))
    && (forall i :: a + |r| <= i < |s| ==> IsSpace(s[i]))
    && (|r| > 0 ==> !IsSpace(r[0]) && !IsSpace(r[|r| - 1]))
  }

  /** Python's `s.strip()`: the result is the part of `s` between a
      whitespace prefix and a whitespace suffix, and neither of its ends
      is whitespace. */
  function Strip(s: string): (r: string)
    ensures StrippedAt(s, r, LeadingSpace(s))
  {
    var a := LeadingSpace(s);
    var rest := s[a..];
    var r := rest[..|rest| - TrailingSpace(rest)];
    assert r == s[a..a + |r|];
    r
  }

  /** Only one string is `s` stripped: the shape `StrippedAt` describes
      determines it (and, when it is non-empty, where it starts). */
  lemma StrippedAtUnique(s: string, r: string, a: nat, r': string, a': nat)
    requires StrippedAt(s, r, a) && StrippedAt(s, r', a')
    ensures r == r'
    ensures |r| > 0 ==> a == a'
  {
    assert |r| > 0 ==> s[a] == r[0] && s[a + |r| - 1] == r[|r| - 1];
    assert |r'| > 0 ==> s[a'] == r'[0] && s[a' + |r'| - 1] == r'[|r'| - 1];
  }

  lemma StripIdempotent(s: string)
    ensures Strip(Strip(s)) == Strip(s)
  {
    var r := Strip(s);
    assert StrippedAt(r, r, 0);
    StrippedAtUnique(r, r, 0, Strip(r), LeadingSpace(r));
  }

  /** `"\n".join(lines)`. */
  function JoinLines(lines: seq<string>): string {
    if |lines| == 0 then ""
    else if |lines| == 1 then lines[0]
    else lines[0] + "\n" + JoinLines(lines[1..])
  }

  /** Splitting text at every newline, Python's `s.split("\n")`. */
  function SplitLines(s: string): (lines: seq<string>)
    ensures |lines| >= 1
    decreases |s|
  {
    if exists i :: 0 <= i < |s| && s[i] == '\n' then
      var i := FirstNewline(s);
      [s[..i]] + SplitLines(s[i + 1..])
    else
      [s]
  }

  function FirstNewline(s: string): (i: nat)
    requires exists i :: 0 <= i < |s| && s[i] == '\n'
    ensures i < |s| && s[i] == '\n'
    ensures forall j :: 0 <= j < i ==> s[j] != '\n'
  {
    if s[0] == '\n' then 0 else 1 + FirstNewline(s[1..])
  }

  predicate NoNewline(s: string) {
    forall i :: 0 <= i < |s| ==> s[i] != '\n'
  }

  /** A newline-free first line is split off at the newline after it. */
  lemma SplitAfterLine(l: string, t: string)
    requires NoNewline(l)
    ensures SplitLines(l + "\n" + t) == [l] + SplitLines(t)
  {
    var s := l + "\n" + t;
    assert s[|l|] == '\n';
    assert forall j :: 0 <= j < |l| ==> s[j] == l[j];
    assert FirstNewline(s) == |l|;
    assert s[..|l|] == l;
    assert s[|l| + 1..] == t;
  }

  /** Joining newline-free lines with newlines loses nothing: splitting the
      text gives the lines back. */
  lemma {:induction false} SplitJoinLines(lines: seq<string>)
    requires |lines| >= 1
    requires forall k :: 0 <= k < |lines| ==> NoNewline(lines[k])
    ensures SplitLines(JoinLines(lines)) == lines
  {
    if |lines| > 1 {
      SplitAfterLine(lines[0], JoinLines(lines[1..]));
      SplitJoinLines(lines[1..]);
      assert lines == [lines[0]] + lines[1..];
    } else {
      assert NoNewline(lines[0]);
    }
  }
}

=== FILE: wrappers.dfy ===
/** Failure-carrying datatypes shared by the whole model. */
module Wrappers {

  /** A value that may be missing: Python's `None` or a value. */
  datatype Option<+T> = None | Some(value: T)

  /** The outcome of a Python call that may raise: either it returns a
      value, or it raises and the `reason` names the exception. */
  datatype Result<+T> = Ok(value: T) | Raised(reason: string)
}
